=== FILE: README.md ===
# Knowledge-graph extraction evaluator, modelled in Dafny

This project models the evaluation script `eval/eval_extraction.py` of an
improved LightRAG repository. The script compares the knowledge graph that
LightRAG extracted with a hand-labelled ground truth and scores the comparison.

- **Text canonicalisation** (`normalize`): an empty or absent value becomes
  `""`. Any other value is stripped of surrounding whitespace and lower-cased
  (module `Text`).
- **Adapters.** Two functions turn raw data into the same shape: an entity map
  (`id -> type`) and a set of `(source, label, target)` relation triples. One
  reads a fetched LightRAG graph, where an edge's description serves as the
  label. The other reads a ground-truth document (modules `Graph`, `Adapters`).
- **Driver aggregation.** The script's main block merges the results of all
  graphs and all documents. Entity maps merge with `dict.update`, so a later
  source overwrites an earlier one. Relation sets merge with `set.update`, a
  union (modules `Adapters`, `Driver`).
- **Entity evaluation** (`eval_entities`). Each ground-truth id is exactly one
  of:
  - a true positive (the model gives it the same type);
  - a wrong-type entity (present in the model with another type);
  - a false negative (absent from the model).

  Each id only the model has is a false positive. The report also holds
  precision, recall, F1 and type accuracy (module `EntityEval`).
- **Relation evaluation** (`eval_relations`). Each ground-truth triple scans the
  model triples in order and stops at the first one with the same source and
  target; labels are never compared. A hit is a true positive and marks that
  model triple used. A miss is a false negative. Each model triple never marked
  used is a false positive (module `RelationEval`).
- **Ratios** (module `Metrics`): every ratio is 0 when its denominator is 0.

Python dicts are modelled as `Graph.EntityMap`, which pairs a finite map with
its key insertion order. The order matters because the evaluator's output lists
are built by iterating over the dicts. Python sets of triples are modelled as
duplicate-free sequences.

The relation scan does **not** skip model triples that are already used. One
might read `used_model` as saying that each model triple can be matched only
once, but the code only fills that set and never consults it inside the loop.
So a single model triple can be the hit of several ground-truth triples. The
model follows the code:
- `RelationEval.SharedModelTriple` exhibits two true positives from one used
  model triple.
- The same lemma shows that swapping the roles of model and ground truth changes
  the true-positive count.

## Model

| member | source | states |
|---|---|---|
| Text.LowerChar | eval/eval_extraction.py:7 | lower-casing one character yields no upper-case letter, keeps whether it is whitespace, and leaves non-upper-case characters alone |
| Text.Lower | eval/eval_extraction.py:7 | `lower()` keeps the length and lower-cases position by position |
| Text.TrimLeft | eval/eval_extraction.py:7 | the left half of `strip()`: the result is a suffix, everything cut off is whitespace, and the result does not start with whitespace |
| Text.TrimRight | eval/eval_extraction.py:7 | the right half of `strip()`: the result is a prefix, everything cut off is whitespace, and the result does not end with whitespace |
| Text.IsSpace | eval/eval_extraction.py:7 | the characters Python's `str.isspace` accepts, which `str.strip()` with no argument removes: U+0009-U+000D, U+001C-U+001F, U+0020, U+0085, U+00A0, U+1680, U+2000-U+200A, U+2028, U+2029, U+202F, U+205F and U+3000; every property of `Text.Strip` and `Text.Normalize` rests on this set |
| Text.Strip | eval/eval_extraction.py:7 | `strip()` never lengthens its input and leaves no whitespace at either end |
| Text.StripExact | eval/eval_extraction.py:7 | for a text whose non-blank core is `text[i..j]`, `strip()` returns exactly that core |
| Text.Normalize | eval/eval_extraction.py:4-8 | the empty text gives `""`; every result has no edge whitespace and no upper-case letter and is no longer than the input |
| Text.NormalizeField | eval/eval_extraction.py:38 | an absent value (a missing `description`) normalises to `""`; every result is normal |
| Text.NormalizeIsLoweredCore | eval/eval_extraction.py:4-8 | an independent description of `normalize`: it equals the lower-cased text between the leading and trailing whitespace runs |
| Text.NormalizeFixedPoints | eval/eval_extraction.py:4-8 | `normalize(s) == s` exactly when `s` has no edge whitespace and no upper-case letter |
| Text.NormalizeIdempotent | eval/eval_extraction.py:4-8 | `normalize(normalize(x)) == normalize(x)` for every text |
| Text.NormalizeIgnoresCase | eval/eval_extraction.py:7 | texts equal after lower-casing normalise to the same string |
| Text.NormalizeIgnoresPadding | eval/eval_extraction.py:7 | surrounding whitespace of any length does not change the normalised text |
| Seqs.Insert | eval/eval_extraction.py:39 | `set.add`: the result stays duplicate-free, keeps the old elements in place, and holds exactly the old elements plus the new one |
| Seqs.InsertAll | eval/eval_extraction.py:152 | `set.update`: the result stays duplicate-free, keeps the old elements in place, and holds exactly the union |
| Seqs.Restrict | eval/eval_extraction.py:63-77 | the reference for a list built by appending in iteration order: the elements of a sequence that belong to a set, in their order; it holds exactly those elements and is no longer than the sequence |
| Seqs.Fresh | eval/eval_extraction.py:29-32 | the keys a run of dict assignments adds: exactly the elements of the sequence that are not in the already-held set |
| Seqs.FreshDistinct | eval/eval_extraction.py:151 | on a duplicate-free sequence whose elements are kept exactly when they are not already held, the first-occurrence fresh elements equal `Seqs.Restrict` of the sequence to the kept set |
| Graph.Put | eval/eval_extraction.py:32 | `d[id] = t`: the map is updated at `id` only and the key order stays valid; an id already present keeps the order unchanged and a new id is appended at the end |
| Graph.PutAll | eval/eval_extraction.py:29-32 | a loop of dict assignments keeps a valid key order with the old order as a prefix |
| Graph.PutAllKeys | eval/eval_extraction.py:29-32 | after the loop, the keys are the old keys plus the keys of all assigned pairs |
| Graph.PutAllKeySet | eval/eval_extraction.py:29-32 | the key set after the loop is the old key set plus every assigned key |
| Graph.PutAllOrder | eval/eval_extraction.py:29-32 | the key order after the loop is the old order followed by each key the map did not hold, at its first assignment, in assignment order (dict insertion order) |
| Graph.PutAllLastWins | eval/eval_extraction.py:29-32 | a key assigned several times keeps the value of its last assignment |
| Graph.PutAllUntouched | eval/eval_extraction.py:29-32 | a key no pair assigns keeps its old value |
| Graph.PutAllValues | eval/eval_extraction.py:29-32 | every value after the loop is the key's old value or the value of some pair with that key |
| Graph.PutAllItemsAt | eval/eval_extraction.py:151 | assigning another map's items one by one gives, at each key, that map's value if it has one and the old value otherwise |
| Graph.Update | eval/eval_extraction.py:151 | `dict.update`: the result maps every key of either map, the second map's value winning; its key order is the first map's followed by the keys only the second map has, in the second map's order |
| Graph.UpdateOrder | eval/eval_extraction.py:151 | assigning another map's items in its order appends exactly the keys the first map lacks, in the other map's order |
| Metrics.Ratio | eval/eval_extraction.py:79-80 | `num / den if den > 0 else 0`: 0 for a zero denominator; otherwise the quotient times the denominator is the numerator; in [0, 1] when `num <= den`; 1 when they agree; 0 when `num` is 0 |
| Metrics.HarmonicMean | eval/eval_extraction.py:81 | for non-negative p and r with a positive sum, `2pr/(p+r)` lies in [0, 1] when p and r do, is 1 when both are 1, is 0 when either is 0, and multiplied back by `p + r` gives `2pr` |
| Metrics.F1 | eval/eval_extraction.py:81 | F1 is 0 when `p + r` is 0, lies in [0, 1] for arguments in [0, 1], is 1 when both are 1, is 0 when either is 0, and otherwise times `p + r` equals `2pr` |
| Adapters.Build | eval/eval_extraction.py:27-41 | from normalised pairs and triples, builds a valid and normalised extraction whose ids are the pairs' keys and whose relations are the triples |
| Adapters.NodePair | eval/eval_extraction.py:30-32 | one node becomes the (id, type) pair the loop assigns, both normalised |
| Adapters.EdgeTriple | eval/eval_extraction.py:35-39 | one edge becomes the (source, description, target) triple the loop adds, all normalised, with label `""` when the description is absent |
| Adapters.FromGraph | eval/eval_extraction.py:27-41 | the graph adapter yields a valid entity map and relation set whose ids, types and triple components are all normalised |
| Adapters.FromGraphIds | eval/eval_extraction.py:29-32 | the graph adapter's ids are exactly the normalised node ids |
| Adapters.FromGraphTriples | eval/eval_extraction.py:34-39 | the graph adapter's triples are exactly the edges' (normalised source, normalised description or "" when absent, normalised target) triples |
| Adapters.FromGraphMissingDescription | eval/eval_extraction.py:38 | an edge without a description contributes a triple whose label is `""` |
| Adapters.FromGraphLastWins | eval/eval_extraction.py:29-32 | a node id seen several times keeps the normalised type of its last occurrence |
| Adapters.FromDocument | eval/eval_extraction.py:43-54 | the document adapter yields a valid entity map and relation set whose ids, types and triple components are all normalised |
| Adapters.EntityPair | eval/eval_extraction.py:45-46 | one labelled entity becomes the (id, type) pair the loop assigns, both normalised |
| Adapters.RelationTriple | eval/eval_extraction.py:49-52 | one labelled relation becomes the (source, relation, target) triple the loop adds, all normalised |
| Adapters.FromDocumentIds | eval/eval_extraction.py:44-46 | the ground-truth ids are exactly the normalised record ids |
| Adapters.FromDocumentTriples | eval/eval_extraction.py:48-52 | the ground-truth triples are exactly the records' (normalised source, normalised relation, normalised target) triples |
| Adapters.FromDocumentLastWins | eval/eval_extraction.py:44-46 | a record id listed several times keeps the normalised type of its last occurrence |
| Adapters.Merge | eval/eval_extraction.py:151-152 | merging keeps validity; the entity map is the key-overwriting union, the relation set is the union, and normalised inputs give a normalised result |
| Adapters.MergeAll | eval/eval_extraction.py:148-152 | merging all sources in order keeps validity, and all-normalised sources give a normalised result |
| Adapters.MergeAllStep | eval/eval_extraction.py:148-152 | one step of the aggregation: the last source's types override the merged ones and its triples join the merged set |
| Adapters.MergeAllTypes | eval/eval_extraction.py:151 | the merged types are all sources' types united in source order, later sources overriding earlier ones |
| Adapters.MergeAllIds | eval/eval_extraction.py:151 | an id is merged exactly when some source has it |
| Adapters.MergeAllTriples | eval/eval_extraction.py:152 | a triple is merged exactly when some source has it |
| Adapters.MergeAllLastWins | eval/eval_extraction.py:151 | an id's merged type is its type in the last source that has it |
| EntityEval.TallyGroundTruth | eval/eval_extraction.py:63-72 | each ground-truth id lands in exactly one bucket; each list is as long as its counter; `missing` holds exactly the ids absent from the model; `wrongTypes` holds exactly the (id, expected, got) records of type disagreements |
| EntityEval.TallyModel | eval/eval_extraction.py:74-77 | the extra list holds exactly the model ids absent from the ground truth, as many as the counter, and has no duplicate when the ids have none |
| EntityEval.MissingInOrder | eval/eval_extraction.py:63-66 | the missing list is the ground-truth ids absent from the model, in the ground truth's key order |
| EntityEval.WrongTypesInOrder | eval/eval_extraction.py:63-70 | the ids of the wrong-type list are the ids the two maps type differently, in the ground truth's key order |
| EntityEval.ExtraInOrder | eval/eval_extraction.py:74-77 | the extra list is the model ids absent from the ground truth, in the model's key order |
| EntityEval.EntityOrder | eval/eval_extraction.py:63-77 | the three lists follow the key order of the dict their loop iterates |
| EntityEval.EvalEntities | eval/eval_extraction.py:56-97 | tp + fn + wrong_type is the ground truth's size and tp + wrong_type + fp is the model's; each list is as long as its counter and holds exactly its bucket; each counter is the size of its bucket as a set; `missing` and `wrong_type_entities` follow the ground truth's key order and `extra` the model's (as `Seqs.Restrict` of that order); precision is tp / (tp + fp + wrong_type), recall tp / (tp + fn + wrong_type), type accuracy tp / (tp + wrong_type), each 0 for a zero denominator, and f1 their harmonic mean (`EntityEval.RatiosOfCounts`) |
| EntityEval.Report | eval/eval_extraction.py:79-97 | the result dict carries the loops' counters and lists unchanged, and its ratios are those of `EntityEval.RatiosOfCounts`: precision tp / (tp + fp + wrong_type), recall tp / (tp + fn + wrong_type), type accuracy tp / (tp + wrong_type), each 0 for a zero denominator, and f1 their harmonic mean |
| EntityEval.EntityCounts | eval/eval_extraction.py:57-77 | the four counters are the sizes of the agreeing, missing, disagreeing and extra id sets, and these split both maps |
| EntityEval.EvalIdentical | eval/eval_extraction.py:79-83 | comparing a non-empty map with itself gives only true positives and all four ratios 1 |
| EntityEval.EvalDisjoint | eval/eval_extraction.py:79-83 | maps sharing no id give tp 0, every id missing or extra, and all four ratios 0 |
| EntityEval.EntityMetricsBounded | eval/eval_extraction.py:79-83 | all four ratios lie in [0, 1] and are 0 when their denominators are 0 |
| RelationEval.FirstMatch | eval/eval_extraction.py:109-115 | the inner scan finds nothing exactly when no model triple has the same endpoints; otherwise it stops at the first one that does |
| RelationEval.Hit | eval/eval_extraction.py:113 | a scan marks at most one model triple used: none when nothing matches, otherwise one with the same endpoints |
| RelationEval.ScanGroundTruth | eval/eval_extraction.py:107-119 | tp counts the ground-truth triples with a match and tp + fn is their number; `matched` and `missing` are as long as their counters and hold exactly the triples with and without a match |
| RelationEval.UsedModel | eval/eval_extraction.py:106-113 | `used_model` holds only model triples |
| RelationEval.UsedMembers | eval/eval_extraction.py:106-113 | `used_model` holds exactly the model triples at which some ground-truth triple's scan stopped |
| RelationEval.UsedBound | eval/eval_extraction.py:106-115 | no more model triples are used than ground-truth triples matched |
| RelationEval.Unused | eval/eval_extraction.py:122-125 | the extra list holds exactly the model triples not used, as many as the counter, and has no duplicate when the model has none |
| RelationEval.EvalRelations | eval/eval_extraction.py:99-141 | tp counts the matched ground-truth triples and tp + fn is their number; no more triples are used than matched; the lists hold exactly the matched, missing and unused triples; with no duplicate model triples, fp plus the number of used triples is the number of model triples; precision is tp / (tp + fp), recall tp / (tp + fn), each 0 for a zero denominator, and f1 their harmonic mean |
| RelationEval.Report | eval/eval_extraction.py:127-141 | the result dict carries the loops' counters and lists unchanged, and its ratios are those of `RelationEval.RatiosOfCounts`: precision tp / (tp + fp), recall tp / (tp + fn), each 0 for a zero denominator, and f1 their harmonic mean |
| RelationEval.UsedEnds | eval/eval_extraction.py:106-115 | the endpoint pairs of the used model triples are exactly those of the matched ground-truth triples |
| RelationEval.UsedEndsInjective | eval/eval_extraction.py:108-113 | two used model triples with the same endpoints are the same triple, because every scan for a pair stops at the first model triple with that pair |
| RelationEval.UsedCount | eval/eval_extraction.py:106-115 | the number of used model triples is the number of distinct endpoint pairs among the matched ground-truth triples |
| RelationEval.SameMatches | eval/eval_extraction.py:108-109 | whether a ground-truth triple finds a match depends only on which triples the model holds, not on their order |
| RelationEval.MatchedPairsIgnoreOrder | eval/eval_extraction.py:106-115 | the matched endpoint pairs depend only on which triples the two inputs hold |
| RelationEval.FalsePositivesIgnoreOrder | eval/eval_extraction.py:106-125 | duplicate-free model inputs with the same triples, against ground-truth inputs with the same triples, give the same fp whatever the order |
| RelationEval.RelationMetricsBounded | eval/eval_extraction.py:127-129 | precision, recall and F1 lie in [0, 1] and are 0 when their denominators are 0 |
| RelationEval.EvalEmpty | eval/eval_extraction.py:99-141 | empty inputs give all counts 0, empty lists and all ratios 0 |
| RelationEval.SharedModelTriple | eval/eval_extraction.py:107-115 | two ground-truth triples with the same endpoints both match one model triple: tp 2 with one used triple, and tp 1 when the roles are swapped |
| RelationEval.LabelsIgnored | eval/eval_extraction.py:110 | relabelling ground-truth and model triples without touching endpoints leaves tp, fn and recall unchanged |
| Driver.GraphExtractions | eval/eval_extraction.py:147-150 | the graph adapter applied to each fetched graph in order, each result valid and normalised |
| Driver.DocumentExtractions | eval/eval_extraction.py:158-160 | the document adapter applied to each ground-truth document in order, each result valid and normalised |
| Driver.ModelExtraction | eval/eval_extraction.py:144-152 | the merged model entities and relations are valid and normalised |
| Driver.GroundTruthExtraction | eval/eval_extraction.py:157-162 | the merged ground-truth entities and relations are valid and normalised |
| Driver.RelationResults | eval/eval_extraction.py:165 | every merged ground-truth triple is counted once; every merged model triple is either used or extra; every listed triple is normalised |
| Driver.EntityResults | eval/eval_extraction.py:164 | the entity counters partition both merged maps, and the missing and extra ids are normalised |
| Driver.MatchedAcrossSources | eval/eval_extraction.py:148-165 | a labelled relation whose normalised endpoints are those of some edge of some graph is a true positive, whatever the edge's description |
| Driver.MissingAcrossSources | eval/eval_extraction.py:148-165 | a labelled relation whose normalised endpoints are those of no edge of any graph is a false negative |

## Left out

- `get_graph` (lines 10-25): an HTTP GET against the LightRAG server. The fetched graphs are parameters of `Driver`, and the hard-coded label list is not modelled.
- Reading `eval/eval_extraction_data.json` and writing the result JSON files: file I/O. The documents are parameters of `Driver`, and the reports are returned as datatypes.
- Malformed input: a missing `nodes`, `edges`, `properties`, `entity_id`, `entity_type`, `source`, `target`, `id`, `type` or `relation` key raises `KeyError` in Python. The datatypes always carry these fields. Only the edge description is optional (`Option`), as the code's `.get("description", "")` allows.
- `normalize` applied to a non-string truthy value (an `AttributeError` in Python): every field is modelled as a string.
- Text.LowerChar: maps only the ASCII letters A-Z, because Python's `str.lower` applies the full Unicode case mapping, which is out of scope. Non-ASCII text is therefore left as is.
- Text.Lower: inherits the ASCII-only mapping of `Text.LowerChar`.
- Metrics.Ratio: is an exact rational, because IEEE-754 double rounding of Python's `/` is not modelled. Python also returns the integer `0` rather than `0.0` for a zero denominator.
- Metrics.F1: is exact real arithmetic, for the same reason.
- Python set iteration order: a set of triples is modelled as a duplicate-free sequence in insertion order. Python iterates sets in hash order.
  - Every theorem about `RelationEval` holds for every order of its inputs.
  - tp, fn, fp, and the contents of `matched` and `missing` do not depend on the order (`RelationEval.FalsePositivesIgnoreOrder` for fp). The order of the `matched` and `missing` lists follows the ground truth's iteration order.
  - Which of several model triples with the same endpoints gets marked used depends on the model's order, and so do the contents of `extra`.
- The `print` in `get_graph`'s error branch, and `get_graph` returning `None` on a non-200 status (which would make the adapter raise): both belong to the HTTP call.
- The rest of the repository (the prompt-optimisation agent, generation evaluation, data insertion) is not part of this model.

=== FILE: adapters.dfy ===
/** The two adapters that bring the model's graph and the hand-labelled ground
    truth into the unified representation (`get_nodes_edges_from_graph` and
    `get_nodes_edges_from_evaldata`), and the merge that aggregates several of
    them into one (the driver's `dict.update` / `set.update` loop). */
module Adapters {
  import opened Wrappers
  import opened Text
  import opened Seqs
  import opened Graph

  /** A node of the graph service's answer: `properties.entity_id` and
      `properties.entity_type`. */
  datatype Node = Node(entityId: string, entityType: string)

  /** An edge of the graph service's answer: `source`, `target`, and
      `properties.description`, which may be missing or null. */
  datatype Edge = Edge(source: string, target: string, description: Option<string>)

  datatype GraphData = GraphData(nodes: seq<Node>, edges: seq<Edge>)

  /** A ground-truth entity record: `id` and `type`. */
  datatype LabeledEntity = LabeledEntity(id: string, entityType: string)

  /** A ground-truth relation record: `source`, `relation` and `target`. */
  datatype LabeledRelation = LabeledRelation(source: string, relation: string, target: string)

  /** One ground-truth document. */
  datatype EvalDocument = EvalDocument(entities: seq<LabeledEntity>, relations: seq<LabeledRelation>)

  /** What an adapter returns: the entity map and the relation set. */
  datatype Extraction = Extraction(entities: EntityMap, relations: seq<Triple>) {
    predicate Valid() {
      entities.Valid() && Distinct(relations)
    }

    /** Every id, type and triple component is a fixed point of `normalize`. */
    predicate Normalized() {
      && (forall k :: k in entities.types ==> IsNormal(k) && IsNormal(entities.types[k]))
      && (forall t :: t in relations ==> NormalTriple(t))
    }
  }

  predicate NormalTriple(t: Triple) {
    IsNormal(t.source) && IsNormal(t.relation) && IsNormal(t.target)
  }

  const NoExtraction := Extraction(NoEntities, [])

  predicate NormalPairs(pairs: seq<(string, string)>) {
    forall i :: 0 <= i < |pairs| ==> IsNormal(pairs[i].0) && IsNormal(pairs[i].1)
  }

  /** An entity map built from normal pairs has normal keys and values, and
      its keys are exactly the pairs' keys. */
  lemma {:induction false} EntitiesFromPairs(pairs: seq<(string, string)>)
    requires NormalPairs(pairs)
    ensures forall k :: k in PutAll(NoEntities, pairs).types <==> exists i :: 0 <= i < |pairs| && pairs[i].0 == k
    ensures Extraction(PutAll(NoEntities, pairs), []).Normalized()
  {
    var m := PutAll(NoEntities, pairs);
    forall k
      ensures k in m.types <==> exists i :: 0 <= i < |pairs| && pairs[i].0 == k
      ensures k in m.types ==> IsNormal(k) && IsNormal(m.types[k])
    {
      PutAllKeys(NoEntities, pairs, k);
      if k in m.types {
        PutAllValues(NoEntities, pairs, k);
      }
    }
  }

  /** The loops both adapters share: assign the (id, type) pairs in order into
      an empty dict, and add the triples to an empty set. */
  function Build(pairs: seq<(string, string)>, triples: seq<Triple>): (r: Extraction)
    requires NormalPairs(pairs)
    requires forall i :: 0 <= i < |triples| ==> NormalTriple(triples[i])
    ensures r.Valid() && r.Normalized()
    ensures forall k :: k in r.entities.types <==> exists i :: 0 <= i < |pairs| && pairs[i].0 == k
    ensures forall t :: t in r.relations <==> t in triples
  {
    EntitiesFromPairs(pairs);
    var relations := InsertAll([], triples);
    assert forall t :: t in relations ==> NormalTriple(t);
    Extraction(PutAll(NoEntities, pairs), relations)
  }

  /** One node as the pair the node loop assigns: its id and type, both
      normalised. */
  function NodePair(n: Node): (p: (string, string))
    ensures IsNormal(p.0) && IsNormal(p.1)
  {
    (Normalize(n.entityId), Normalize(n.entityType))
  }

  /** One edge as the triple the edge loop adds: source, description
      (empty when absent) and target, all normalised. */
  function EdgeTriple(e: Edge): (t: Triple)
    ensures NormalTriple(t)
    ensures e.description.None? ==> t.relation == ""
  {
    Triple(Normalize(e.source), NormalizeField(e.description), Normalize(e.target))
  }

  function NodePairs(nodes: seq<Node>): (pairs: seq<(string, string)>)
    ensures |pairs| == |nodes|
    ensures forall i :: 0 <= i < |nodes| ==> pairs[i] == NodePair(nodes[i])
    ensures NormalPairs(pairs)
  {
    seq(|nodes|, i requires 0 <= i < |nodes| => NodePair(nodes[i]))
  }

  function EdgeTriples(edges: seq<Edge>): (triples: seq<Triple>)
    ensures |triples| == |edges|
    ensures forall i :: 0 <= i < |edges| ==> triples[i] == EdgeTriple(edges[i])
    ensures forall i :: 0 <= i < |triples| ==> NormalTriple(triples[i])
  {
    seq(|edges|, i requires 0 <= i < |edges| => EdgeTriple(edges[i]))
  }

  /** `get_nodes_edges_from_graph`: it produces only normalised ids, types
      and triple components. */
  function FromGraph(g: GraphData): (r: Extraction)
    ensures r.Valid() && r.Normalized()
  {
    Build(NodePairs(g.nodes), EdgeTriples(g.edges))
  }

  /** The ids of the graph adapter's entity map are the normalised node ids. */
  lemma FromGraphIds(g: GraphData, k: string)
    ensures k in FromGraph(g).entities.types <==> exists i :: 0 <= i < |g.nodes| && Normalize(g.nodes[i].entityId) == k
  {
    var pairs := NodePairs(g.nodes);
    assert forall i :: 0 <= i < |g.nodes| ==> pairs[i].0 == Normalize(g.nodes[i].entityId);
  }

  /** The graph adapter's triples are the edges' normalised
      (source, description, target) triples, one per distinct edge: the
      description is the label, and an absent one counts as "". */
  lemma FromGraphTriples(g: GraphData, t: Triple)
    ensures t in FromGraph(g).relations <==>
      exists i :: 0 <= i < |g.edges| &&
        t == Triple(Normalize(g.edges[i].source), NormalizeField(g.edges[i].description), Normalize(g.edges[i].target))
  {
    var triples := EdgeTriples(g.edges);
    if t in triples {
      var i :| 0 <= i < |triples| && triples[i] == t;
      assert EdgeTriple(g.edges[i]) == t;
    }
    if exists i :: 0 <= i < |g.edges| &&
         t == Triple(Normalize(g.edges[i].source), NormalizeField(g.edges[i].description), Normalize(g.edges[i].target)) {
      var i :| 0 <= i < |g.edges| &&
        t == Triple(Normalize(g.edges[i].source), NormalizeField(g.edges[i].description), Normalize(g.edges[i].target));
      assert triples[i] == t;
    }
  }

  /** An edge without a description yields the label "". */
  lemma FromGraphMissingDescription(g: GraphData, i: nat)
    requires i < |g.edges| && g.edges[i].description.None?
    ensures Triple(Normalize(g.edges[i].source), "", Normalize(g.edges[i].target)) in FromGraph(g).relations
  {
    FromGraphTriples(g, EdgeTriple(g.edges[i]));
  }

  /** A node id seen several times keeps the type of its last occurrence. */
  lemma FromGraphLastWins(g: GraphData, i: nat)
    requires i < |g.nodes|
    requires forall j :: i < j < |g.nodes| ==> Normalize(g.nodes[j].entityId) != Normalize(g.nodes[i].entityId)
    ensures Normalize(g.nodes[i].entityId) in FromGraph(g).entities.types
    ensures FromGraph(g).entities.types[Normalize(g.nodes[i].entityId)] == Normalize(g.nodes[i].entityType)
  {
    var pairs := NodePairs(g.nodes);
    PutAllLastWins(NoEntities, pairs, i);
  }

  /** One labelled entity as the pair the entity loop assigns: its id and
      type, both normalised. */
  function EntityPair(e: LabeledEntity): (p: (string, string))
    ensures IsNormal(p.0) && IsNormal(p.1)
  {
    (Normalize(e.id), Normalize(e.entityType))
  }

  /** One labelled relation as the triple the relation loop adds: source,
      relation and target, all normalised. */
  function RelationTriple(r: LabeledRelation): (t: Triple)
    ensures NormalTriple(t)
  {
    Triple(Normalize(r.source), Normalize(r.relation), Normalize(r.target))
  }

  function EntityPairs(entities: seq<LabeledEntity>): (pairs: seq<(string, string)>)
    ensures |pairs| == |entities|
    ensures forall i :: 0 <= i < |entities| ==> pairs[i] == EntityPair(entities[i])
    ensures NormalPairs(pairs)
  {
    seq(|entities|, i requires 0 <= i < |entities| => EntityPair(entities[i]))
  }

  function RelationTriples(relations: seq<LabeledRelation>): (triples: seq<Triple>)
    ensures |triples| == |relations|
    ensures forall i :: 0 <= i < |relations| ==> triples[i] == RelationTriple(relations[i])
    ensures forall i :: 0 <= i < |triples| ==> NormalTriple(triples[i])
  {
    seq(|relations|, i requires 0 <= i < |relations| => RelationTriple(relations[i]))
  }

  /** `get_nodes_edges_from_evaldata`: the same conversion for a ground-truth
      document, the `relation` field giving the label; it produces only
      normalised ids, types and triple components. */
  function FromDocument(d: EvalDocument): (r: Extraction)
    ensures r.Valid() && r.Normalized()
  {
    Build(EntityPairs(d.entities), RelationTriples(d.relations))
  }

  /** The ids of the ground-truth entity map are the normalised record ids. */
  lemma FromDocumentIds(d: EvalDocument, k: string)
    ensures k in FromDocument(d).entities.types <==> exists i :: 0 <= i < |d.entities| && Normalize(d.entities[i].id) == k
  {
    var pairs := EntityPairs(d.entities);
    assert forall i :: 0 <= i < |d.entities| ==> pairs[i].0 == Normalize(d.entities[i].id);
  }

  /** The ground-truth triples are the records' normalised
      (source, relation, target) triples: the `relation` field is the
      label. */
  lemma FromDocumentTriples(d: EvalDocument, t: Triple)
    ensures t in FromDocument(d).relations <==>
      exists i :: 0 <= i < |d.relations| &&
        t == Triple(Normalize(d.relations[i].source), Normalize(d.relations[i].relation), Normalize(d.relations[i].target))
  {
    var triples := RelationTriples(d.relations);
    if t in triples {
      var i :| 0 <= i < |triples| && triples[i] == t;
      assert RelationTriple(d.relations[i]) == t;
    }
    if exists i :: 0 <= i < |d.relations| &&
         t == Triple(Normalize(d.relations[i].source), Normalize(d.relations[i].relation), Normalize(d.relations[i].target)) {
      var i :| 0 <= i < |d.relations| &&
        t == Triple(Normalize(d.relations[i].source), Normalize(d.relations[i].relation), Normalize(d.relations[i].target));
      assert triples[i] == t;
    }
  }

  /** A ground-truth id listed several times keeps its last type. */
  lemma FromDocumentLastWins(d: EvalDocument, i: nat)
    requires i < |d.entities|
    requires forall j :: i < j < |d.entities| ==> Normalize(d.entities[j].id) != Normalize(d.entities[i].id)
    ensures Normalize(d.entities[i].id) in FromDocument(d).entities.types
    ensures FromDocument(d).entities.types[Normalize(d.entities[i].id)] == Normalize(d.entities[i].entityType)
  {
    var pairs := EntityPairs(d.entities);
    PutAllLastWins(NoEntities, pairs, i);
  }

  /** One step of the driver's aggregation: entities merge by key overwrite
      (the later extraction wins), relations by set union. */
  function Merge(a: Extraction, b: Extraction): (r: Extraction)
    requires a.Valid() && b.Valid()
    ensures r.Valid()
    ensures r.entities.types == a.entities.types + b.entities.types
    ensures forall t :: t in r.relations <==> t in a.relations || t in b.relations
    ensures a.Normalized() && b.Normalized() ==> r.Normalized()
  {
    Extraction(Update(a.entities, b.entities), InsertAll(a.relations, b.relations))
  }

  /** The driver's aggregation over all sources, in order; normalised inputs
      give a normalised result. */
  function MergeAll(xs: seq<Extraction>): (r: Extraction)
    requires forall i :: 0 <= i < |xs| ==> xs[i].Valid()
    ensures r.Valid()
    ensures (forall i :: 0 <= i < |xs| ==> xs[i].Normalized()) ==> r.Normalized()
  {
    if |xs| == 0 then NoExtraction
    else
      var n := |xs| - 1;
      assert forall i :: 0 <= i < n ==> xs[..n][i] == xs[i];
      Merge(MergeAll(xs[..n]), xs[n])
  }

  /** The ids of all sources together. */
  function IdsOf(xs: seq<Extraction>): set<string> {
    if |xs| == 0 then {} else IdsOf(xs[..|xs| - 1]) + xs[|xs| - 1].entities.types.Keys
  }

  /** The triples of all sources together. */
  function TriplesOf(xs: seq<Extraction>): set<Triple> {
    if |xs| == 0 then {} else TriplesOf(xs[..|xs| - 1]) + Elements(xs[|xs| - 1].relations)
  }

  lemma {:induction false} IdsOfMembers(xs: seq<Extraction>, k: string)
    ensures k in IdsOf(xs) <==> exists x :: x in xs && k in x.entities.types
  {
    if |xs| > 0 {
      var n := |xs| - 1;
      IdsOfMembers(xs[..n], k);
      assert forall x :: x in xs <==> x in xs[..n] || x == xs[n];
    }
  }

  lemma {:induction false} TriplesOfMembers(xs: seq<Extraction>, t: Triple)
    ensures t in TriplesOf(xs) <==> exists x :: x in xs && t in x.relations
  {
    if |xs| > 0 {
      var n := |xs| - 1;
      TriplesOfMembers(xs[..n], t);
      assert forall x :: x in xs <==> x in xs[..n] || x == xs[n];
    }
  }

  /** The merged id set is the union over all sources. */
  lemma {:induction false} MergeAllIdSet(xs: seq<Extraction>)
    requires forall i :: 0 <= i < |xs| ==> xs[i].Valid()
    ensures MergeAll(xs).entities.types.Keys == IdsOf(xs)
  {
    if |xs| > 0 {
      var n := |xs| - 1;
      var init := xs[..n];
      assert forall i :: 0 <= i < n ==> init[i] == xs[i];
      MergeAllIdSet(init);
      MergeAllStep(xs);
    }
  }

  /** The merged triple set is the union over all sources. */
  lemma {:induction false} MergeAllTripleSet(xs: seq<Extraction>)
    requires forall i :: 0 <= i < |xs| ==> xs[i].Valid()
    ensures Elements(MergeAll(xs).relations) == TriplesOf(xs)
  {
    if |xs| > 0 {
      var n := |xs| - 1;
      var init := xs[..n];
      assert forall i :: 0 <= i < n ==> init[i] == xs[i];
      MergeAllTripleSet(init);
      var prev := MergeAll(init);
      MergeAllStep(xs);
      assert Elements(MergeAll(xs).relations) == Elements(prev.relations) + Elements(xs[n].relations);
    }
  }

  /** The merged ids are the ids of all sources. */
  lemma MergeAllIds(xs: seq<Extraction>, k: string)
    requires forall i :: 0 <= i < |xs| ==> xs[i].Valid()
    ensures k in MergeAll(xs).entities.types <==> exists x :: x in xs && k in x.entities.types
  {
    MergeAllIdSet(xs);
    IdsOfMembers(xs, k);
  }

  /** The merged relation set is the union of all sources' sets. */
  lemma MergeAllTriples(xs: seq<Extraction>, t: Triple)
    requires forall i :: 0 <= i < |xs| ==> xs[i].Valid()
    ensures t in MergeAll(xs).relations <==> exists x :: x in xs && t in x.relations
  {
    MergeAllTripleSet(xs);
    TriplesOfMembers(xs, t);
  }

  /** One step of the aggregation: the last source's types override and its
      triples join the set. */
  lemma MergeAllStep(xs: seq<Extraction>)
    requires forall i :: 0 <= i < |xs| ==> xs[i].Valid()
    requires |xs| > 0
    ensures MergeAll(xs).entities.types
         == MergeAll(xs[..|xs| - 1]).entities.types + xs[|xs| - 1].entities.types
    ensures forall t :: t in MergeAll(xs).relations
                    <==> t in MergeAll(xs[..|xs| - 1]).relations || t in xs[|xs| - 1].relations
  {
    var n := |xs| - 1;
    var init := xs[..n];
    assert forall i :: 0 <= i < n ==> init[i] == xs[i];
  }

  /** The types of all sources together, later sources overriding. */
  function TypesOf(xs: seq<Extraction>): map<string, string> {
    if |xs| == 0 then map[] else TypesOf(xs[..|xs| - 1]) + xs[|xs| - 1].entities.types
  }

  lemma {:induction false} MergeAllTypes(xs: seq<Extraction>)
    requires forall i :: 0 <= i < |xs| ==> xs[i].Valid()
    ensures MergeAll(xs).entities.types == TypesOf(xs)
  {
    if |xs| > 0 {
      var n := |xs| - 1;
      var init := xs[..n];
      assert forall i :: 0 <= i < n ==> init[i] == xs[i];
      MergeAllTypes(init);
      MergeAllStep(xs);
    }
  }

  lemma {:induction false} TypesOfLastWins(xs: seq<Extraction>, i: nat, k: string)
    requires i < |xs| && k in xs[i].entities.types
    requires forall j :: i < j < |xs| ==> k !in xs[j].entities.types
    ensures k in TypesOf(xs) && TypesOf(xs)[k] == xs[i].entities.types[k]
  {
    var n := |xs| - 1;
    var init := xs[..n];
    if i < n {
      assert forall j :: 0 <= j < n ==> init[j] == xs[j];
      TypesOfLastWins(init, i, k);
      assert k !in xs[n].entities.types;
    }
  }

  /** An id's merged type is its type in the last source that has it. */
  lemma MergeAllLastWins(xs: seq<Extraction>, i: nat, k: string)
    requires forall j :: 0 <= j < |xs| ==> xs[j].Valid()
    requires i < |xs| && k in xs[i].entities.types
    requires forall j :: i < j < |xs| ==> k !in xs[j].entities.types
    ensures k in MergeAll(xs).entities.types
    ensures MergeAll(xs).entities.types[k] == xs[i].entities.types[k]
  {
    MergeAllTypes(xs);
    TypesOfLastWins(xs, i, k);
  }
}

=== FILE: driver.dfy ===
/** The script's driver: every model graph goes through the graph adapter and
    every ground-truth document through the document adapter; the results
    are merged (entities by key overwrite, relations by set union) and the
    merged relation sets are evaluated. The graphs are parameters here:
    fetching them over HTTP and reading the documents from disk are outside
    the model. */
module Driver {
  import opened Seqs
  import opened Text
  import opened Graph
  import opened Adapters
  import opened RelationEval
  import EntityEval

  /** The graph adapter applied to each fetched graph, in order. */
  function GraphExtractions(graphs: seq<GraphData>): (xs: seq<Extraction>)
    ensures |xs| == |graphs|
    ensures forall i :: 0 <= i < |graphs| ==> xs[i] == FromGraph(graphs[i])
    ensures forall i :: 0 <= i < |xs| ==> xs[i].Valid() && xs[i].Normalized()
  {
    seq(|graphs|, i requires 0 <= i < |graphs| => FromGraph(graphs[i]))
  }

  /** The document adapter applied to each ground-truth document, in order. */
  function DocumentExtractions(docs: seq<EvalDocument>): (xs: seq<Extraction>)
    ensures |xs| == |docs|
    ensures forall i :: 0 <= i < |docs| ==> xs[i] == FromDocument(docs[i])
    ensures forall i :: 0 <= i < |xs| ==> xs[i].Valid() && xs[i].Normalized()
  {
    seq(|docs|, i requires 0 <= i < |docs| => FromDocument(docs[i]))
  }

  /** `all_model_nodes`, `all_model_edges`: normalised throughout. */
  function ModelExtraction(graphs: seq<GraphData>): (r: Extraction)
    ensures r.Valid() && r.Normalized()
  {
    MergeAll(GraphExtractions(graphs))
  }

  /** `all_gt_nodes`, `all_gt_edges`: normalised throughout. */
  function GroundTruthExtraction(docs: seq<EvalDocument>): (r: Extraction)
    ensures r.Valid() && r.Normalized()
  {
    MergeAll(DocumentExtractions(docs))
  }

  /** The relation report the script writes out: every ground-truth triple is
      counted once, every merged model triple is either used or extra, and
      every listed triple is normalised. */
  function RelationResults(graphs: seq<GraphData>, docs: seq<EvalDocument>): (r: RelationReport)
    ensures r.tp + r.fn == |GroundTruthExtraction(docs).relations|
    ensures r.fp + |UsedModel(ModelExtraction(graphs).relations, GroundTruthExtraction(docs).relations)|
            == |ModelExtraction(graphs).relations|
    ensures forall t :: t in r.matched ==> NormalTriple(t)
    ensures forall t :: t in r.missing ==> NormalTriple(t)
    ensures forall t :: t in r.extra ==> NormalTriple(t)
  {
    EvalRelations(ModelExtraction(graphs).relations, GroundTruthExtraction(docs).relations)
  }

  /** The entity report of the merged maps. The script has this call
      commented out; it is kept here because the evaluator is part of it. */
  function EntityResults(graphs: seq<GraphData>, docs: seq<EvalDocument>): (r: EntityEval.EntityReport)
    ensures r.tp + r.fn + r.wrongType == |GroundTruthExtraction(docs).entities.types|
    ensures r.tp + r.wrongType + r.fp == |ModelExtraction(graphs).entities.types|
    ensures forall k :: k in r.missing ==> IsNormal(k)
    ensures forall k :: k in r.extra ==> IsNormal(k)
  {
    EntityEval.EvalEntities(ModelExtraction(graphs).entities, GroundTruthExtraction(docs).entities)
  }

  /** A labelled relation is in the merged ground truth as its normalised
      triple. */
  lemma InGroundTruth(docs: seq<EvalDocument>, di: nat, ri: nat)
    requires di < |docs| && ri < |docs[di].relations|
    ensures RelationTriple(docs[di].relations[ri]) in GroundTruthExtraction(docs).relations
  {
    var t := RelationTriple(docs[di].relations[ri]);
    var xs := DocumentExtractions(docs);
    FromDocumentTriples(docs[di], t);
    assert t in xs[di].relations;
    MergeAllTriples(xs, t);
  }

  /** An edge of a fetched graph is in the merged model relations as its
      normalised triple. */
  lemma InModel(graphs: seq<GraphData>, gi: nat, ei: nat)
    requires gi < |graphs| && ei < |graphs[gi].edges|
    ensures EdgeTriple(graphs[gi].edges[ei]) in ModelExtraction(graphs).relations
  {
    var t := EdgeTriple(graphs[gi].edges[ei]);
    var xs := GraphExtractions(graphs);
    FromGraphTriples(graphs[gi], t);
    assert t in xs[gi].relations;
    MergeAllTriples(xs, t);
  }

  /** End to end: a labelled relation whose endpoints, once normalised, are
      those of some edge of some fetched graph is a true positive, whatever
      the edge's description. */
  lemma MatchedAcrossSources(graphs: seq<GraphData>, docs: seq<EvalDocument>, di: nat, ri: nat, gi: nat, ei: nat)
    requires di < |docs| && ri < |docs[di].relations|
    requires gi < |graphs| && ei < |graphs[gi].edges|
    requires Normalize(graphs[gi].edges[ei].source) == Normalize(docs[di].relations[ri].source)
    requires Normalize(graphs[gi].edges[ei].target) == Normalize(docs[di].relations[ri].target)
    ensures RelationTriple(docs[di].relations[ri]) in RelationResults(graphs, docs).matched
  {
    var t := RelationTriple(docs[di].relations[ri]);
    var m := EdgeTriple(graphs[gi].edges[ei]);
    var model := ModelExtraction(graphs).relations;
    InGroundTruth(docs, di, ri);
    InModel(graphs, gi, ei);
    var j :| 0 <= j < |model| && model[j] == m;
    assert SameEndpoints(t, model[j]);
  }

  /** Every merged model triple comes from some edge of some fetched graph. */
  lemma ModelOrigin(graphs: seq<GraphData>, m: Triple) returns (gi: nat, ei: nat)
    requires m in ModelExtraction(graphs).relations
    ensures gi < |graphs| && ei < |graphs[gi].edges|
    ensures EdgeTriple(graphs[gi].edges[ei]) == m
  {
    var xs := GraphExtractions(graphs);
    MergeAllTriples(xs, m);
    var x :| x in xs && m in x.relations;
    gi := IndexOf(xs, x);
    assert m in FromGraph(graphs[gi]).relations;
    FromGraphTriples(graphs[gi], m);
    var k :| 0 <= k < |graphs[gi].edges| && EdgeTriple(graphs[gi].edges[k]) == m;
    ei := k;
  }

  /** End to end: a labelled relation whose normalised endpoints are those
      of no edge of any fetched graph is a false negative. */
  lemma MissingAcrossSources(graphs: seq<GraphData>, docs: seq<EvalDocument>, di: nat, ri: nat)
    requires di < |docs| && ri < |docs[di].relations|
    requires forall gi, ei :: 0 <= gi < |graphs| && 0 <= ei < |graphs[gi].edges| ==>
               !SameEndpoints(RelationTriple(docs[di].relations[ri]), EdgeTriple(graphs[gi].edges[ei]))
    ensures RelationTriple(docs[di].relations[ri]) in RelationResults(graphs, docs).missing
  {
    var t := RelationTriple(docs[di].relations[ri]);
    var model := ModelExtraction(graphs).relations;
    InGroundTruth(docs, di, ri);
    forall j | 0 <= j < |model|
      ensures !SameEndpoints(t, model[j])
    {
      var gi, ei := ModelOrigin(graphs, model[j]);
    }
    assert !HasMatch(t, model);
  }
}

=== FILE: entity_eval.dfy ===
/** `eval_entities`: compares the model's entity map with the ground truth's.
    Every ground-truth id is a true positive (same type), a wrong-type entity
    (present with a different type) or a false negative (missing); every
    model-only id is a false positive (extra). */
module EntityEval {
  import opened Seqs
  import opened Graph
  import opened Metrics

  /** An id both maps know, with the ground truth's and the model's types. */
  datatype WrongType = WrongType(id: string, expected: string, got: string)

  datatype EntityReport = EntityReport(
    precision: real,
    recall: real,
    f1: real,
    typeAccuracy: real,
    missing: seq<string>,
    extra: seq<string>,
    wrongTypes: seq<WrongType>,
    tp: nat,
    fp: nat,
    fn: nat,
    wrongType: nat)

  /** The ids both maps know with the same type. */
  function Agreeing(model: map<string, string>, gt: map<string, string>): set<string> {
    set k | k in gt && k in model && model[k] == gt[k]
  }

  /** The ids both maps know with different types. */
  function Disagreeing(model: map<string, string>, gt: map<string, string>): set<string> {
    set k | k in gt && k in model && model[k] != gt[k]
  }

  function Ids(ws: seq<WrongType>): (ids: seq<string>)
    ensures |ids| == |ws|
    ensures forall i :: 0 <= i < |ws| ==> ids[i] == ws[i].id
  {
    seq(|ws|, i requires 0 <= i < |ws| => ws[i].id)
  }

  lemma IdsAppend(ws: seq<WrongType>, w: WrongType)
    ensures Ids(ws + [w]) == Ids(ws) + [w.id]
  {
  }

  /** The counters and lists of the loop over the ground truth. */
  datatype GtTally = GtTally(tp: nat, fn: nat, wrongType: nat, missing: seq<string>, wrongTypes: seq<WrongType>)

  /** The loop over the ground-truth ids, in order: each id lands in exactly
      one bucket, each list is as long as its counter, and each list holds
      exactly the ids of its bucket. */
  function TallyGroundTruth(ids: seq<string>, gt: map<string, string>, model: map<string, string>): (r: GtTally)
    requires forall i :: 0 <= i < |ids| ==> ids[i] in gt
    ensures r.tp + r.fn + r.wrongType == |ids|
    ensures |r.missing| == r.fn && |r.wrongTypes| == r.wrongType
    ensures forall k :: k in r.missing <==> k in ids && k !in model
    ensures forall w :: w in r.wrongTypes <==>
              w.id in ids && w.id in model && w.expected == gt[w.id] && w.got == model[w.id] && w.got != w.expected
  {
    if |ids| == 0 then GtTally(0, 0, 0, [], [])
    else
      var n := |ids| - 1;
      var id := ids[n];
      var prev := TallyGroundTruth(ids[..n], gt, model);
      assert forall k :: k in ids <==> k in ids[..n] || k == id;
      if id !in model then
        GtTally(prev.tp, prev.fn + 1, prev.wrongType, prev.missing + [id], prev.wrongTypes)
      else if model[id] != gt[id] then
        var w := WrongType(id, gt[id], model[id]);
        GtTally(prev.tp, prev.fn, prev.wrongType + 1, prev.missing, prev.wrongTypes + [w])
      else
        GtTally(prev.tp + 1, prev.fn, prev.wrongType, prev.missing, prev.wrongTypes)
  }

  /** Without repeated ground-truth ids, the missing list repeats no id. */
  lemma {:induction false} MissingDistinct(ids: seq<string>, gt: map<string, string>, model: map<string, string>)
    requires forall i :: 0 <= i < |ids| ==> ids[i] in gt
    requires Distinct(ids)
    ensures Distinct(TallyGroundTruth(ids, gt, model).missing)
  {
    if |ids| > 0 {
      var n := |ids| - 1;
      assert Distinct(ids[..n]);
      MissingDistinct(ids[..n], gt, model);
      assert ids[n] !in ids[..n];
    }
  }

  /** Without repeated ground-truth ids, the wrong-type list repeats no id. */
  lemma {:induction false} WrongTypesDistinct(ids: seq<string>, gt: map<string, string>, model: map<string, string>)
    requires forall i :: 0 <= i < |ids| ==> ids[i] in gt
    requires Distinct(ids)
    ensures Distinct(Ids(TallyGroundTruth(ids, gt, model).wrongTypes))
  {
    if |ids| > 0 {
      var n := |ids| - 1;
      var id := ids[n];
      var prev := TallyGroundTruth(ids[..n], gt, model).wrongTypes;
      assert Distinct(ids[..n]);
      WrongTypesDistinct(ids[..n], gt, model);
      assert id !in ids[..n];
      var cur := TallyGroundTruth(ids, gt, model).wrongTypes;
      if id in model && model[id] != gt[id] {
        var w := WrongType(id, gt[id], model[id]);
        assert cur == prev + [w];
        IdsAppend(prev, w);
        forall i | 0 <= i < |prev|
          ensures Ids(prev)[i] != id
        {
          assert prev[i] in prev;
        }
        DistinctAppend(Ids(prev), id);
      } else {
        assert cur == prev;
      }
    }
  }

  /** The missing list keeps the ground truth's order: it is the
      ground-truth ids absent from the model, in the order the loop visits
      them. */
  lemma {:induction false} MissingInOrder(ids: seq<string>, gt: map<string, string>, model: map<string, string>)
    requires forall i :: 0 <= i < |ids| ==> ids[i] in gt
    ensures TallyGroundTruth(ids, gt, model).missing == Restrict(ids, gt.Keys - model.Keys)
  {
    if |ids| > 0 {
      MissingInOrder(ids[..|ids| - 1], gt, model);
    }
  }

  /** The wrong-type list keeps the ground truth's order: its ids are the
      ids typed differently by the two maps, in the order the loop visits
      them. */
  lemma {:induction false} WrongTypesInOrder(ids: seq<string>, gt: map<string, string>, model: map<string, string>)
    requires forall i :: 0 <= i < |ids| ==> ids[i] in gt
    ensures Ids(TallyGroundTruth(ids, gt, model).wrongTypes) == Restrict(ids, Disagreeing(model, gt))
  {
    if |ids| > 0 {
      var n := |ids| - 1;
      var init := ids[..n];
      var wrong := Disagreeing(model, gt);
      WrongTypesInOrder(init, gt, model);
      WrongTypesStep(ids, gt, model);
      assert Restrict(ids, wrong) == Restrict(init, wrong) + (if ids[n] in wrong then [ids[n]] else []);
      if ids[n] !in wrong {
        assert Restrict(ids, wrong) == Restrict(init, wrong) + [];
      }
    }
  }

  /** One step of the loop over the ground truth, seen from the ids of the
      wrong-type list: the id is appended exactly when the maps disagree on
      it. */
  lemma WrongTypesStep(ids: seq<string>, gt: map<string, string>, model: map<string, string>)
    requires forall i :: 0 <= i < |ids| ==> ids[i] in gt
    requires |ids| > 0
    ensures ids[|ids| - 1] in Disagreeing(model, gt) ==>
      Ids(TallyGroundTruth(ids, gt, model).wrongTypes)
      == Ids(TallyGroundTruth(ids[..|ids| - 1], gt, model).wrongTypes) + [ids[|ids| - 1]]
    ensures ids[|ids| - 1] !in Disagreeing(model, gt) ==>
      Ids(TallyGroundTruth(ids, gt, model).wrongTypes)
      == Ids(TallyGroundTruth(ids[..|ids| - 1], gt, model).wrongTypes)
  {
    var n := |ids| - 1;
    var id := ids[n];
    var prev := TallyGroundTruth(ids[..n], gt, model).wrongTypes;
    var cur := TallyGroundTruth(ids, gt, model).wrongTypes;
    if id in model && model[id] != gt[id] {
      assert id in Disagreeing(model, gt);
      assert cur == prev + [WrongType(id, gt[id], model[id])];
      IdsAppend(prev, WrongType(id, gt[id], model[id]));
    } else {
      assert id !in Disagreeing(model, gt);
      assert cur == prev;
    }
  }

  /** The ids on the wrong-type list are the ground-truth ids the model
      types differently. */
  lemma WrongTypeIds(ids: seq<string>, gt: map<string, string>, model: map<string, string>)
    requires forall i :: 0 <= i < |ids| ==> ids[i] in gt
    ensures Elements(Ids(TallyGroundTruth(ids, gt, model).wrongTypes)) == set k | k in ids && k in model && model[k] != gt[k]
  {
    var ws := TallyGroundTruth(ids, gt, model).wrongTypes;
    forall k | k in ids && k in model && model[k] != gt[k]
      ensures k in Ids(ws)
    {
      var w := WrongType(k, gt[k], model[k]);
      var i :| 0 <= i < |ws| && ws[i] == w;
      assert Ids(ws)[i] == k;
    }
  }

  /** The counter and list of the loop over the model's ids. */
  datatype ModelTally = ModelTally(fp: nat, extra: seq<string>)

  /** The loop over the model's ids, in order: the extra list holds exactly
      the ids the ground truth lacks, and is as long as the counter. */
  function TallyModel(ids: seq<string>, gt: map<string, string>): (r: ModelTally)
    ensures |r.extra| == r.fp
    ensures forall k :: k in r.extra <==> k in ids && k !in gt
    ensures Distinct(ids) ==> Distinct(r.extra)
  {
    if |ids| == 0 then ModelTally(0, [])
    else
      var n := |ids| - 1;
      var id := ids[n];
      var prev := TallyModel(ids[..n], gt);
      assert forall k :: k in ids <==> k in ids[..n] || k == id;
      assert Distinct(ids) ==> id !in ids[..n];
      if id !in gt then ModelTally(prev.fp + 1, prev.extra + [id]) else prev
  }

  /** The extra list keeps the model's order: it is the model's ids the
      ground truth lacks, in the order the loop visits them. */
  lemma {:induction false} ExtraInOrder(ids: seq<string>, gt: map<string, string>, keys: set<string>)
    requires forall i :: 0 <= i < |ids| ==> ids[i] in keys
    ensures TallyModel(ids, gt).extra == Restrict(ids, keys - gt.Keys)
  {
    if |ids| > 0 {
      ExtraInOrder(ids[..|ids| - 1], gt, keys);
    }
  }

  /** `eval_entities(model_entities, gt_entities)`. */
  function EvalEntities(model: EntityMap, gt: EntityMap): (r: EntityReport)
    requires model.Valid() && gt.Valid()
    ensures r.tp + r.fn + r.wrongType == |gt.types|
    ensures r.tp + r.wrongType + r.fp == |model.types|
    ensures |r.missing| == r.fn && |r.extra| == r.fp && |r.wrongTypes| == r.wrongType
    ensures forall k :: k in r.missing <==> k in gt.types && k !in model.types
    ensures forall k :: k in r.extra <==> k in model.types && k !in gt.types
    ensures forall w :: w in r.wrongTypes <==>
              && w.id in gt.types && w.id in model.types
              && w.expected == gt.types[w.id] && w.got == model.types[w.id] && w.got != w.expected
    ensures r.tp == |Agreeing(model.types, gt.types)|
    ensures r.fn == |gt.types.Keys - model.types.Keys|
    ensures r.fp == |model.types.Keys - gt.types.Keys|
    ensures r.wrongType == |Disagreeing(model.types, gt.types)|
    ensures r.missing == Restrict(gt.order, gt.types.Keys - model.types.Keys)
    ensures Ids(r.wrongTypes) == Restrict(gt.order, Disagreeing(model.types, gt.types))
    ensures r.extra == Restrict(model.order, model.types.Keys - gt.types.Keys)
    ensures RatiosOfCounts(r)
  {
    var g := TallyGroundTruth(gt.order, gt.types, model.types);
    var e := TallyModel(model.order, gt.types);
    EntityCounts(model, gt, g, e);
    EntityOrder(model, gt, g, e);
    Report(g, e)
  }

  /** The ratios `eval_entities` reports, in terms of the report's own
      counters: precision is the share of true positives among every id the
      model typed, recall their share among every ground-truth id, F1 the
      harmonic mean of the two, and type accuracy the share of true positives
      among the ids both maps know. */
  predicate RatiosOfCounts(r: EntityReport) {
    && r.precision == Ratio(r.tp, r.tp + r.fp + r.wrongType)
    && r.recall == Ratio(r.tp, r.tp + r.fn + r.wrongType)
    && 0.0 <= r.precision && 0.0 <= r.recall
    && r.f1 == F1(r.precision, r.recall)
    && r.typeAccuracy == Ratio(r.tp, r.tp + r.wrongType)
  }

  /** The report of the two loops' tallies: the counters and lists as the
      loops left them, and the ratios computed from those counters. */
  function Report(g: GtTally, e: ModelTally): (r: EntityReport)
    ensures r.tp == g.tp && r.fn == g.fn && r.wrongType == g.wrongType && r.fp == e.fp
    ensures r.missing == g.missing && r.wrongTypes == g.wrongTypes && r.extra == e.extra
    ensures RatiosOfCounts(r)
  {
    var precision := Ratio(g.tp, g.tp + e.fp + g.wrongType);
    var recall := Ratio(g.tp, g.tp + g.fn + g.wrongType);
    EntityReport(
      precision, recall, F1(precision, recall), Ratio(g.tp, g.tp + g.wrongType),
      g.missing, e.extra, g.wrongTypes, g.tp, e.fp, g.fn, g.wrongType)
  }

  /** The lists of the two loops follow the key order of the map each loop
      walks. */
  lemma EntityOrder(model: EntityMap, gt: EntityMap, g: GtTally, e: ModelTally)
    requires model.Valid() && gt.Valid()
    requires g == TallyGroundTruth(gt.order, gt.types, model.types)
    requires e == TallyModel(model.order, gt.types)
    ensures g.missing == Restrict(gt.order, gt.types.Keys - model.types.Keys)
    ensures Ids(g.wrongTypes) == Restrict(gt.order, Disagreeing(model.types, gt.types))
    ensures e.extra == Restrict(model.order, model.types.Keys - gt.types.Keys)
  {
    MissingInOrder(gt.order, gt.types, model.types);
    WrongTypesInOrder(gt.order, gt.types, model.types);
    ExtraInOrder(model.order, gt.types, model.types.Keys);
  }

  /** The counters of the two loops are the sizes of the four buckets. */
  lemma EntityCounts(model: EntityMap, gt: EntityMap, g: GtTally, e: ModelTally)
    requires model.Valid() && gt.Valid()
    requires g == TallyGroundTruth(gt.order, gt.types, model.types)
    requires e == TallyModel(model.order, gt.types)
    ensures g.fn == |gt.types.Keys - model.types.Keys|
    ensures e.fp == |model.types.Keys - gt.types.Keys|
    ensures g.wrongType == |Disagreeing(model.types, gt.types)|
    ensures g.tp == |Agreeing(model.types, gt.types)|
    ensures g.tp + g.fn + g.wrongType == |gt.types|
    ensures g.tp + g.wrongType + e.fp == |model.types|
  {
    SizeOfEntityMap(gt);
    SizeOfEntityMap(model);
    GroundTruthBuckets(model, gt);
    ExtraBucket(model, gt);
    GroundTruthSplit(model.types, gt.types);
    ModelSplit(model.types, gt.types);
  }

  /** The missing and wrong-type counters are the sizes of their buckets. */
  lemma GroundTruthBuckets(model: EntityMap, gt: EntityMap)
    requires model.Valid() && gt.Valid()
    ensures TallyGroundTruth(gt.order, gt.types, model.types).fn == |gt.types.Keys - model.types.Keys|
    ensures TallyGroundTruth(gt.order, gt.types, model.types).wrongType == |Disagreeing(model.types, gt.types)|
  {
    var g := TallyGroundTruth(gt.order, gt.types, model.types);
    MissingDistinct(gt.order, gt.types, model.types);
    WrongTypesDistinct(gt.order, gt.types, model.types);
    assert g.fn == |gt.types.Keys - model.types.Keys| by {
      DistinctCard(g.missing);
      assert Elements(g.missing) == gt.types.Keys - model.types.Keys;
    }
    assert g.wrongType == |Disagreeing(model.types, gt.types)| by {
      DistinctCard(Ids(g.wrongTypes));
      WrongTypeIds(gt.order, gt.types, model.types);
      assert Elements(Ids(g.wrongTypes)) == Disagreeing(model.types, gt.types);
    }
  }

  /** The extra counter is the size of its bucket. */
  lemma ExtraBucket(model: EntityMap, gt: EntityMap)
    requires model.Valid() && gt.Valid()
    ensures TallyModel(model.order, gt.types).fp == |model.types.Keys - gt.types.Keys|
  {
    var e := TallyModel(model.order, gt.types);
    DistinctCard(e.extra);
    assert Elements(e.extra) == model.types.Keys - gt.types.Keys;
  }

  /** The ground truth's ids split into agreeing, disagreeing and missing
      ones. */
  lemma GroundTruthSplit(model: map<string, string>, gt: map<string, string>)
    ensures |gt| == |Agreeing(model, gt)| + |Disagreeing(model, gt)| + |gt.Keys - model.Keys|
  {
    var agree := Agreeing(model, gt);
    var disagree := Disagreeing(model, gt);
    var missing := gt.Keys - model.Keys;
    assert gt.Keys == agree + disagree + missing;
    DisjointUnionCard(agree, disagree, missing, gt.Keys);
  }

  /** The model's ids split into agreeing, disagreeing and extra ones. */
  lemma ModelSplit(model: map<string, string>, gt: map<string, string>)
    ensures |model| == |Agreeing(model, gt)| + |Disagreeing(model, gt)| + |model.Keys - gt.Keys|
  {
    var agree := Agreeing(model, gt);
    var disagree := Disagreeing(model, gt);
    var extra := model.Keys - gt.Keys;
    assert model.Keys == agree + disagree + extra;
    DisjointUnionCard(agree, disagree, extra, model.Keys);
  }

  /** A set split into three pairwise disjoint parts has the sum of their
      sizes as its size. */
  lemma DisjointUnionCard<T>(a: set<T>, b: set<T>, c: set<T>, u: set<T>)
    requires u == a + b + c
    requires a !! b && a !! c && b !! c
    ensures |u| == |a| + |b| + |c|
  {
    assert |a + b| == |a| + |b|;
    assert (a + b) !! c;
  }

  /** Comparing a map with itself: every id is a true positive, and all four
      ratios are 1 when the map is not empty. */
  lemma EvalIdentical(m: EntityMap)
    requires m.Valid() && |m.types| > 0
    ensures var r := EvalEntities(m, m);
      && r.tp == |m.types| && r.fp == 0 && r.fn == 0 && r.wrongType == 0
      && r.precision == 1.0 && r.recall == 1.0 && r.f1 == 1.0 && r.typeAccuracy == 1.0
  {
    var r := EvalEntities(m, m);
  }

  /** Maps sharing no id: nothing matches, every ground-truth id is missing,
      every model id is extra, and all four ratios are 0. */
  lemma EvalDisjoint(model: EntityMap, gt: EntityMap)
    requires model.Valid() && gt.Valid()
    requires model.types.Keys !! gt.types.Keys
    ensures var r := EvalEntities(model, gt);
      && r.tp == 0 && r.wrongType == 0 && r.fn == |gt.types| && r.fp == |model.types|
      && r.precision == 0.0 && r.recall == 0.0 && r.f1 == 0.0 && r.typeAccuracy == 0.0
  {
    var r := EvalEntities(model, gt);
    assert Agreeing(model.types, gt.types) == {};
  }

  /** Every ratio lies in [0, 1] and is 0 when its denominator is 0. */
  lemma EntityMetricsBounded(model: EntityMap, gt: EntityMap)
    requires model.Valid() && gt.Valid()
    ensures var r := EvalEntities(model, gt);
      && 0.0 <= r.precision <= 1.0 && 0.0 <= r.recall <= 1.0
      && 0.0 <= r.f1 <= 1.0 && 0.0 <= r.typeAccuracy <= 1.0
      && (r.tp + r.fp + r.wrongType == 0 ==> r.precision == 0.0)
      && (r.tp + r.fn + r.wrongType == 0 ==> r.recall == 0.0)
      && (r.precision + r.recall == 0.0 ==> r.f1 == 0.0)
      && (r.tp + r.wrongType == 0 ==> r.typeAccuracy == 0.0)
  {
  }
}

=== FILE: graph.dfy ===
/** The unified graph representation both evaluators consume: an entity map
    from entity id to entity type, and relation triples (source, relation label, target).

    A Python `dict` remembers the order in which keys were first inserted, and
    assigning to a key that is already present changes its value but not its
    position. `EntityMap` keeps that order next to the finite map, because the
    evaluator's output lists are built by iterating over it. */
module Graph {
  import opened Seqs

  datatype Triple = Triple(source: string, relation: string, target: string)

  /** The relation evaluator's match test: equal endpoints, relation label ignored. */
  predicate SameEndpoints(a: Triple, b: Triple) {
    a.source == b.source && a.target == b.target
  }

  datatype EntityMap = EntityMap(order: seq<string>, types: map<string, string>) {
    /** The key order lists every key of the map exactly once. */
    predicate Valid() {
      && Distinct(order)
      && types.Keys == Elements(order)
    }
  }

  const NoEntities := EntityMap([], map[])

  /** A valid entity map has as many ids in its order as keys in its map. */
  lemma SizeOfEntityMap(m: EntityMap)
    requires m.Valid()
    ensures |m.types| == |m.order|
  {
    DistinctCard(m.order);
    assert m.types.Keys == Elements(m.order);
  }

  /** `d[id] = t` on a Python dict. */
  function Put(m: EntityMap, id: string, t: string): (r: EntityMap)
    requires m.Valid()
    ensures r.Valid()
    ensures r.types == m.types[id := t]
    ensures id in m.types ==> r.order == m.order
    ensures id !in m.types ==> r.order == m.order + [id]
  {
    if id in m.types then EntityMap(m.order, m.types[id := t])
    else EntityMap(m.order + [id], m.types[id := t])
  }

  /** No later pair in `pairs` has the same key as `pairs[i]`. */
  predicate LastWithKey(pairs: seq<(string, string)>, i: nat)
    requires i < |pairs|
  {
    forall j :: i < j < |pairs| ==> pairs[j].0 != pairs[i].0
  }

  /** Assigns the pairs one after the other, as the adapters' loops do; the
      old key order stays a prefix of the new one. */
  function PutAll(m: EntityMap, pairs: seq<(string, string)>): (r: EntityMap)
    requires m.Valid()
    ensures r.Valid()
    ensures m.order <= r.order
  {
    if |pairs| == 0 then m
    else Put(PutAll(m, pairs[..|pairs| - 1]), pairs[|pairs| - 1].0, pairs[|pairs| - 1].1)
  }

  /** PutAll's keys are the old keys plus the keys of the pairs. */
  lemma PutAllKeys(m: EntityMap, pairs: seq<(string, string)>, k: string)
    requires m.Valid()
    ensures k in PutAll(m, pairs).types <==> k in m.types || exists i :: 0 <= i < |pairs| && pairs[i].0 == k
  {
    PutAllKeySet(m, pairs);
    var ks := PairKeys(pairs);
    if k in ks {
      var i :| 0 <= i < |ks| && ks[i] == k;
      assert pairs[i].0 == k;
    }
    if exists i :: 0 <= i < |pairs| && pairs[i].0 == k {
      var i :| 0 <= i < |pairs| && pairs[i].0 == k;
      assert ks[i] == k;
    }
  }

  /** A key assigned several times keeps the value of its last assignment:
      the last-seen type wins. */
  lemma {:induction false} PutAllLastWins(m: EntityMap, pairs: seq<(string, string)>, i: nat)
    requires m.Valid()
    requires i < |pairs| && LastWithKey(pairs, i)
    ensures pairs[i].0 in PutAll(m, pairs).types
    ensures PutAll(m, pairs).types[pairs[i].0] == pairs[i].1
  {
    var n := |pairs| - 1;
    if i < n {
      assert LastWithKey(pairs[..n], i) by {
        assert forall j :: i < j < n ==> pairs[..n][j] == pairs[j];
      }
      PutAllLastWins(m, pairs[..n], i);
    }
  }

  /** A key no pair assigns keeps its old value. */
  lemma {:induction false} PutAllUntouched(m: EntityMap, pairs: seq<(string, string)>, k: string)
    requires m.Valid() && k in m.types
    requires forall i :: 0 <= i < |pairs| ==> pairs[i].0 != k
    ensures k in PutAll(m, pairs).types
    ensures PutAll(m, pairs).types[k] == m.types[k]
  {
    if |pairs| > 0 {
      var n := |pairs| - 1;
      assert forall i :: 0 <= i < n ==> pairs[..n][i] == pairs[i];
      PutAllUntouched(m, pairs[..n], k);
    }
  }

  /** Every value PutAll holds is an old value or the value of some pair. */
  lemma {:induction false} PutAllValues(m: EntityMap, pairs: seq<(string, string)>, k: string)
    requires m.Valid() && k in PutAll(m, pairs).types
    ensures || (k in m.types && PutAll(m, pairs).types[k] == m.types[k])
            || (k, PutAll(m, pairs).types[k]) in pairs
  {
    if |pairs| > 0 {
      var n := |pairs| - 1;
      if pairs[n].0 != k {
        PutAllValues(m, pairs[..n], k);
        assert forall x :: x in pairs[..n] ==> x in pairs;
      }
    }
  }

  /** The keys of a run of assignments, in order. */
  function PairKeys(pairs: seq<(string, string)>): (ks: seq<string>)
    ensures |ks| == |pairs|
    ensures forall i :: 0 <= i < |pairs| ==> ks[i] == pairs[i].0
  {
    seq(|pairs|, i requires 0 <= i < |pairs| => pairs[i].0)
  }

  /** The keys after a run of assignments are the old keys and the assigned
      ones. */
  lemma {:induction false} PutAllKeySet(m: EntityMap, pairs: seq<(string, string)>)
    requires m.Valid()
    ensures PutAll(m, pairs).types.Keys == m.types.Keys + Elements(PairKeys(pairs))
  {
    if |pairs| > 0 {
      var n := |pairs| - 1;
      var init := pairs[..n];
      PutAllKeySet(m, init);
      assert PairKeys(pairs) == PairKeys(init) + [pairs[n].0];
      assert PutAll(m, pairs).types == PutAll(m, init).types[pairs[n].0 := pairs[n].1];
    }
  }

  lemma FreshPairKeysStep(pairs: seq<(string, string)>, seen: set<string>)
    requires |pairs| > 0
    ensures var n := |pairs| - 1; var before := PairKeys(pairs[..n]);
            Fresh(PairKeys(pairs), seen)
            == Fresh(before, seen) + (if pairs[n].0 in seen || pairs[n].0 in before then [] else [pairs[n].0])
  {
    var n := |pairs| - 1;
    assert PairKeys(pairs)[..n] == PairKeys(pairs[..n]);
  }

  /** Assignments append each key the map did not already hold, at its first
      assignment: the order is the old order followed by the fresh keys in
      first-assignment order. */
  lemma {:induction false} PutAllOrder(m: EntityMap, pairs: seq<(string, string)>)
    requires m.Valid()
    ensures PutAll(m, pairs).order == m.order + Fresh(PairKeys(pairs), m.types.Keys)
  {
    if |pairs| > 0 {
      var n := |pairs| - 1;
      var init := pairs[..n];
      var k := pairs[n].0;
      var prev := PutAll(m, init);
      var before := PairKeys(init);
      PutAllOrder(m, init);
      PutAllKeySet(m, init);
      FreshPairKeysStep(pairs, m.types.Keys);
      assert k in prev.types <==> k in m.types.Keys || k in before;
      assert PutAll(m, pairs) == Put(prev, k, pairs[n].1);
    }
  }

  /** The (id, type) pairs of a map, in its key order. */
  function Items(m: EntityMap): (items: seq<(string, string)>)
    requires m.Valid()
    ensures |items| == |m.order|
    ensures forall i :: 0 <= i < |items| ==> items[i] == (m.order[i], m.types[m.order[i]])
  {
    seq(|m.order|, i requires 0 <= i < |m.order| => (m.order[i], m.types[m.order[i]]))
  }

  /** Assigning the items of a map one after the other overwrites with, and
      adds, exactly that map's entries. */
  lemma {:induction false} PutAllItems(m: EntityMap, other: EntityMap)
    requires m.Valid() && other.Valid()
    ensures PutAll(m, Items(other)).types == m.types + other.types
  {
    var r := PutAll(m, Items(other)).types;
    var u := m.types + other.types;
    forall k
      ensures k in r <==> k in u
      ensures k in r ==> r[k] == u[k]
    {
      PutAllItemsAt(m, other, k);
    }
  }

  lemma {:induction false} PutAllItemsAt(m: EntityMap, other: EntityMap, k: string)
    requires m.Valid() && other.Valid()
    ensures k in PutAll(m, Items(other)).types <==> k in m.types || k in other.types
    ensures k in other.types ==> PutAll(m, Items(other)).types[k] == other.types[k]
    ensures k in m.types && k !in other.types ==> PutAll(m, Items(other)).types[k] == m.types[k]
  {
    var items := Items(other);
    PutAllKeys(m, items, k);
    if k in other.types {
      assert k in Elements(other.order);
      var i :| 0 <= i < |other.order| && other.order[i] == k;
      assert items[i] == (k, other.types[k]);
      assert LastWithKey(items, i) by {
        forall j | i < j < |items|
          ensures items[j].0 != items[i].0
        {
          assert items[j].0 == other.order[j];
        }
      }
      PutAllLastWins(m, items, i);
    } else {
      assert forall i :: 0 <= i < |items| ==> items[i].0 == other.order[i];
      assert forall i :: 0 <= i < |items| ==> items[i].0 != k;
      if k in m.types {
        PutAllUntouched(m, items, k);
      }
    }
  }

  /** `dict.update(other)`: the result maps every key of either map, taking
      `other`'s value where both have one (Dafny's `m + other` on maps); the
      key order is `m`'s followed by the keys only `other` has, in `other`'s
      order. */
  function Update(m: EntityMap, other: EntityMap): (r: EntityMap)
    requires m.Valid() && other.Valid()
    ensures r.Valid()
    ensures r.types == m.types + other.types
    ensures r.order == m.order + Restrict(other.order, other.types.Keys - m.types.Keys)
  {
    PutAllItems(m, other);
    UpdateOrder(m, other);
    PutAll(m, Items(other))
  }

  /** `dict.update` appends the other dict's new keys in that dict's order. */
  lemma UpdateOrder(m: EntityMap, other: EntityMap)
    requires m.Valid() && other.Valid()
    ensures PutAll(m, Items(other)).order == m.order + Restrict(other.order, other.types.Keys - m.types.Keys)
  {
    PutAllOrder(m, Items(other));
    assert PairKeys(Items(other)) == other.order;
    FreshDistinct(other.order, m.types.Keys, other.types.Keys - m.types.Keys);
  }
}

=== FILE: metrics.dfy ===
/** The ratios both evaluators report. Each is defined as 0 when its
    denominator is 0, as eval/eval_extraction.py does with its
    `... if denominator > 0 else 0` expressions. Values are exact reals. */
module Metrics {

  /** `num / den if den > 0 else 0`: a fraction of the denominator, so it lies
      in [0, 1] when the numerator does not exceed the denominator, is 1 when
      they agree and 0 when nothing is counted. */
  function Ratio(num: nat, den: nat): (r: real)
    ensures den == 0 ==> r == 0.0
    ensures den > 0 ==> r * den as real == num as real
    ensures num <= den ==> 0.0 <= r <= 1.0
    ensures 0 < den && num == den ==> r == 1.0
    ensures num == 0 ==> r == 0.0
  {
    if den > 0 then num as real / den as real else 0.0
  }

  lemma MulMono(a: real, b: real, c: real)
    requires 0.0 <= a && b <= c
    ensures a * b <= a * c
  {
  }

  /** For p and r in [0, 1], twice their product is at most their sum. */
  lemma ProductBound(p: real, r: real)
    requires 0.0 <= p <= 1.0 && 0.0 <= r <= 1.0
    ensures 0.0 <= 2.0 * p * r
    ensures 2.0 * p * r <= p + r
  {
    var pr := p * r;
    assert 0.0 <= pr by {
      MulMono(p, 0.0, r);
      assert p * 0.0 == 0.0;
    }
    assert pr <= p by {
      MulMono(p, r, 1.0);
      assert p * 1.0 == p;
    }
    assert pr <= r by {
      MulMono(r, p, 1.0);
      assert r * 1.0 == r;
      assert r * p == pr;
    }
    assert 2.0 * p * r == pr + pr;
  }

  /** A quotient of a non-negative number by a larger positive one lies in
      [0, 1]. */
  lemma QuotientBounds(a: real, b: real)
    requires 0.0 <= a <= b && 0.0 < b
    ensures 0.0 <= a / b <= 1.0
  {
  }

  /** The facts about the harmonic mean that F1 reports. */
  lemma HarmonicMean(p: real, r: real)
    requires 0.0 <= p && 0.0 <= r && p + r > 0.0
    ensures p <= 1.0 && r <= 1.0 ==> 0.0 <= 2.0 * p * r / (p + r) <= 1.0
    ensures p == 1.0 && r == 1.0 ==> 2.0 * p * r / (p + r) == 1.0
    ensures p == 0.0 || r == 0.0 ==> 2.0 * p * r / (p + r) == 0.0
    ensures 2.0 * p * r / (p + r) * (p + r) == 2.0 * p * r
  {
    if p <= 1.0 && r <= 1.0 {
      ProductBound(p, r);
      QuotientBounds(2.0 * p * r, p + r);
    }
    if p == 0.0 || r == 0.0 {
      assert 2.0 * p * r == 0.0;
    }
  }

  /** The harmonic mean `2 * p * r / (p + r) if p + r > 0 else 0`: it stays in
      [0, 1] for arguments in [0, 1], is 1 when both are 1, and 0 as soon as
      one of them is 0. */
  function F1(p: real, r: real): (f: real)
    requires 0.0 <= p && 0.0 <= r
    ensures p + r == 0.0 ==> f == 0.0
    ensures p <= 1.0 && r <= 1.0 ==> 0.0 <= f <= 1.0
    ensures p == 1.0 && r == 1.0 ==> f == 1.0
    ensures p == 0.0 || r == 0.0 ==> f == 0.0
    ensures p + r > 0.0 ==> f * (p + r) == 2.0 * p * r
  {
    if p + r > 0.0 then
      HarmonicMean(p, r);
      2.0 * p * r / (p + r)
    else 0.0
  }
}

=== FILE: relation_eval.dfy ===
/** `eval_relations`: compares the model's relation triples with the ground
    truth's by endpoints alone. For each ground-truth triple, in order, the
    model triples are scanned in order for the first one with the same source
    and target; the relation labels are never compared. A hit is a true
    positive and marks that model triple used, a miss is a false negative, and
    every model triple never marked used is a false positive.

    The scan does not skip model triples that are already used, so one model
    triple can be the hit of several ground-truth triples. */
module RelationEval {
  import opened Wrappers
  import opened Seqs
  import opened Graph
  import opened Metrics

  datatype RelationReport = RelationReport(
    precision: real,
    recall: real,
    f1: real,
    matched: seq<Triple>,
    missing: seq<Triple>,
    extra: seq<Triple>,
    tp: nat,
    fp: nat,
    fn: nat)

  /** Some model triple has the same source and target as `g`. */
  predicate HasMatch(g: Triple, model: seq<Triple>) {
    exists j :: 0 <= j < |model| && SameEndpoints(g, model[j])
  }

  /** The inner scan: the position of the first model triple with the same
      endpoints as `g`, if there is one. */
  function FirstMatch(g: Triple, model: seq<Triple>): (r: Option<nat>)
    ensures r.None? <==> !HasMatch(g, model)
    ensures r.Some? ==> r.value < |model| && SameEndpoints(g, model[r.value])
    ensures r.Some? ==> forall j :: 0 <= j < r.value ==> !SameEndpoints(g, model[j])
  {
    if |model| == 0 then None
    else if SameEndpoints(g, model[0]) then Some(0)
    else
      match FirstMatch(g, model[1..])
      case None =>
        assert forall j :: 1 <= j < |model| ==> model[j] == model[1..][j - 1];
        None
      case Some(k) =>
        assert forall j :: 1 <= j <= k + 1 ==> model[j] == model[1..][j - 1];
        Some(k + 1)
  }

  /** The model triple `g`'s scan marks used: none when nothing shares its
      endpoints, otherwise one that does. */
  function Hit(g: Triple, model: seq<Triple>): (h: set<Triple>)
    ensures |h| <= 1
    ensures h <= Elements(model)
    ensures h == {} <==> !HasMatch(g, model)
    ensures forall m :: m in h ==> SameEndpoints(g, m)
  {
    match FirstMatch(g, model)
    case None => {}
    case Some(j) => {model[j]}
  }

  /** How many of `gts`, counted with repetition, share their endpoints
      with some model triple. */
  function MatchCount(gts: seq<Triple>, model: seq<Triple>): (c: nat)
    ensures c <= |gts|
  {
    if |gts| == 0 then 0
    else MatchCount(gts[..|gts| - 1], model) + (if HasMatch(gts[|gts| - 1], model) then 1 else 0)
  }

  /** The counters and lists of the loop over the ground truth. */
  datatype Scan = Scan(tp: nat, fn: nat, matched: seq<Triple>, missing: seq<Triple>)

  /** The loop over the ground-truth triples, in order: each lands in matched
      or in missing according to whether some model triple shares its
      endpoints, and each list is as long as its counter. */
  function ScanGroundTruth(gts: seq<Triple>, model: seq<Triple>): (r: Scan)
    ensures r.tp == MatchCount(gts, model) && r.tp + r.fn == |gts|
    ensures |r.matched| == r.tp && |r.missing| == r.fn
    ensures forall t :: t in r.matched <==> t in gts && HasMatch(t, model)
    ensures forall t :: t in r.missing <==> t in gts && !HasMatch(t, model)
  {
    if |gts| == 0 then Scan(0, 0, [], [])
    else
      var n := |gts| - 1;
      var g := gts[n];
      var prev := ScanGroundTruth(gts[..n], model);
      assert forall t :: t in gts <==> t in gts[..n] || t == g;
      if HasMatch(g, model) then
        Scan(prev.tp + 1, prev.fn, prev.matched + [g], prev.missing)
      else
        Scan(prev.tp, prev.fn + 1, prev.matched, prev.missing + [g])
  }

  /** The model triples the same loop marks used (`used_model`): only model
      triples. */
  function UsedModel(model: seq<Triple>, gts: seq<Triple>): (used: set<Triple>)
    ensures used <= Elements(model)
  {
    if |gts| == 0 then {} else UsedModel(model, gts[..|gts| - 1]) + Hit(gts[|gts| - 1], model)
  }

  /** The used set holds exactly the model triples some ground-truth
      triple's scan stopped at. */
  lemma {:induction false} UsedMembers(model: seq<Triple>, gts: seq<Triple>, m: Triple)
    ensures m in UsedModel(model, gts) <==> exists g :: g in gts && m in Hit(g, model)
  {
    if |gts| > 0 {
      var n := |gts| - 1;
      UsedMembers(model, gts[..n], m);
      assert forall x :: x in gts <==> x in gts[..n] || x == gts[n];
    }
  }

  /** No more model triples are used than ground-truth triples matched. */
  lemma {:induction false} UsedBound(model: seq<Triple>, gts: seq<Triple>)
    ensures |UsedModel(model, gts)| <= MatchCount(gts, model)
  {
    if |gts| > 0 {
      var n := |gts| - 1;
      var prev := UsedModel(model, gts[..n]);
      var h := Hit(gts[n], model);
      UsedBound(model, gts[..n]);
      assert |prev + h| <= |prev| + |h|;
    }
  }

  /** The counter and list of the loop over the model triples. */
  datatype UnusedTally = UnusedTally(fp: nat, extra: seq<Triple>)

  /** The loop over the model triples, in order: the extra list holds exactly
      the triples not in `used`, and is as long as the counter. */
  function Unused(model: seq<Triple>, used: set<Triple>): (r: UnusedTally)
    ensures |r.extra| == r.fp
    ensures forall t :: t in r.extra <==> t in model && t !in used
    ensures Distinct(model) ==> Distinct(r.extra)
  {
    if |model| == 0 then UnusedTally(0, [])
    else
      var n := |model| - 1;
      var t := model[n];
      var prev := Unused(model[..n], used);
      assert forall x :: x in model <==> x in model[..n] || x == t;
      assert Distinct(model) ==> t !in model[..n];
      if t !in used then UnusedTally(prev.fp + 1, prev.extra + [t]) else prev
  }

  /** The ratios `eval_relations` reports, in terms of the report's own
      counters: precision is the share of true positives among true positives
      and unused model triples, recall their share among all ground-truth
      triples, and F1 the harmonic mean of the two. */
  predicate RatiosOfCounts(r: RelationReport) {
    && r.precision == Ratio(r.tp, r.tp + r.fp)
    && r.recall == Ratio(r.tp, r.tp + r.fn)
    && 0.0 <= r.precision && 0.0 <= r.recall
    && r.f1 == F1(r.precision, r.recall)
  }

  /** `eval_relations(model_relations, gt_relations)`. */
  function EvalRelations(model: seq<Triple>, gt: seq<Triple>): (r: RelationReport)
    ensures r.tp == MatchCount(gt, model) && r.tp + r.fn == |gt|
    ensures |UsedModel(model, gt)| <= r.tp
    ensures |r.matched| == r.tp && |r.missing| == r.fn && |r.extra| == r.fp
    ensures forall t :: t in r.matched <==> t in gt && HasMatch(t, model)
    ensures forall t :: t in r.missing <==> t in gt && !HasMatch(t, model)
    ensures forall t :: t in r.extra <==> t in model && t !in UsedModel(model, gt)
    ensures Distinct(model) ==> r.fp + |UsedModel(model, gt)| == |model|
    ensures RatiosOfCounts(r)
  {
    var s := ScanGroundTruth(gt, model);
    var used := UsedModel(model, gt);
    var e := Unused(model, used);
    UsedBound(model, gt);
    assert Distinct(model) ==> e.fp + |used| == |model| by {
      if Distinct(model) {
        UnusedCount(model, used);
      }
    }
    Report(s, e)
  }

  /** The report of the two loops' tallies: the counters and lists as the
      loops left them, and the ratios computed from those counters. */
  function Report(s: Scan, e: UnusedTally): (r: RelationReport)
    ensures r.tp == s.tp && r.fn == s.fn && r.fp == e.fp
    ensures r.matched == s.matched && r.missing == s.missing && r.extra == e.extra
    ensures RatiosOfCounts(r)
  {
    var precision := Ratio(s.tp, s.tp + e.fp);
    var recall := Ratio(s.tp, s.tp + s.fn);
    RelationReport(precision, recall, F1(precision, recall), s.matched, s.missing, e.extra, s.tp, e.fp, s.fn)
  }

  /** With no duplicate model triples and every used triple among them, the
      unused and the used triples together are all of them. */
  lemma UnusedCount(model: seq<Triple>, used: set<Triple>)
    requires Distinct(model) && used <= Elements(model)
    ensures Unused(model, used).fp + |used| == |model|
  {
    var e := Unused(model, used);
    DistinctCard(model);
    DistinctCard(e.extra);
    assert Elements(e.extra) == Elements(model) - used;
    assert Elements(model) == (Elements(model) - used) + used;
  }

  /** The (source, target) pair of a triple: all the scan compares. */
  function Ends(t: Triple): (string, string) {
    (t.source, t.target)
  }

  /** The endpoint pairs of the ground-truth triples that have a match. */
  function MatchedPairs(gts: seq<Triple>, model: seq<Triple>): set<(string, string)> {
    set g | g in gts && HasMatch(g, model) :: Ends(g)
  }

  /** The endpoint pairs of the used model triples are the matched pairs. */
  lemma UsedEnds(model: seq<Triple>, gts: seq<Triple>)
    ensures (set m | m in UsedModel(model, gts) :: Ends(m)) == MatchedPairs(gts, model)
  {
    var used := UsedModel(model, gts);
    forall m | m in used
      ensures Ends(m) in MatchedPairs(gts, model)
    {
      UsedMembers(model, gts, m);
      var g :| g in gts && m in Hit(g, model);
      assert Ends(m) == Ends(g);
    }
    forall g | g in gts && HasMatch(g, model)
      ensures Ends(g) in set m | m in used :: Ends(m)
    {
      var h := Hit(g, model);
      var m :| m in h;
      UsedMembers(model, gts, m);
      assert m in used && Ends(m) == Ends(g);
    }
  }

  /** Two used model triples with the same endpoints are the same triple:
      every scan for a pair stops at the first model triple with that pair. */
  lemma UsedEndsInjective(model: seq<Triple>, gts: seq<Triple>, a: Triple, b: Triple)
    requires a in UsedModel(model, gts) && b in UsedModel(model, gts)
    requires Ends(a) == Ends(b)
    ensures a == b
  {
    UsedMembers(model, gts, a);
    UsedMembers(model, gts, b);
    var ga :| ga in gts && a in Hit(ga, model);
    var gb :| gb in gts && b in Hit(gb, model);
    FirstMatchIgnoresLabels(ga, gb, model, model);
    assert Hit(ga, model) == Hit(gb, model);
  }

  /** A set of triples no two of which share endpoints has as many
      endpoint pairs as triples. */
  lemma {:induction false} EndsCard(s: set<Triple>)
    requires forall a, b :: a in s && b in s && Ends(a) == Ends(b) ==> a == b
    ensures |set m | m in s :: Ends(m)| == |s|
  {
    if s != {} {
      var x :| x in s;
      var rest := s - {x};
      EndsCard(rest);
      assert (set m | m in s :: Ends(m)) == (set m | m in rest :: Ends(m)) + {Ends(x)};
      assert Ends(x) !in (set m | m in rest :: Ends(m));
    }
  }

  /** As many model triples are used as there are distinct endpoint pairs
      among the matched ground-truth triples, whichever triple each scan
      happens to stop at. */
  lemma UsedCount(model: seq<Triple>, gts: seq<Triple>)
    ensures |UsedModel(model, gts)| == |MatchedPairs(gts, model)|
  {
    var used := UsedModel(model, gts);
    forall a, b | a in used && b in used && Ends(a) == Ends(b)
      ensures a == b
    {
      UsedEndsInjective(model, gts, a, b);
    }
    EndsCard(used);
    UsedEnds(model, gts);
  }

  /** The matched endpoint pairs depend only on which triples the two lists
      hold, not on their order. */
  lemma MatchedPairsIgnoreOrder(m1: seq<Triple>, m2: seq<Triple>, g1: seq<Triple>, g2: seq<Triple>)
    requires Elements(m1) == Elements(m2) && Elements(g1) == Elements(g2)
    ensures MatchedPairs(g1, m1) == MatchedPairs(g2, m2)
  {
    forall g | g in g1 || g in g2
      ensures HasMatch(g, m1) == HasMatch(g, m2)
    {
      SameMatches(g, m1, m2);
    }
    assert forall g :: g in g1 <==> g in g2 by {
      forall g
        ensures g in g1 <==> g in g2
      {
        assert g in g1 <==> g in Elements(g1);
        assert g in g2 <==> g in Elements(g2);
      }
    }
  }

  /** Whether a triple has a match depends only on the model's triples, not
      on their order. */
  lemma SameMatches(g: Triple, m1: seq<Triple>, m2: seq<Triple>)
    requires Elements(m1) == Elements(m2)
    ensures HasMatch(g, m1) == HasMatch(g, m2)
  {
    if HasMatch(g, m1) {
      var j :| 0 <= j < |m1| && SameEndpoints(g, m1[j]);
      assert m1[j] in Elements(m1);
      var k := IndexOf(m2, m1[j]);
      assert SameEndpoints(g, m2[k]);
    }
    if HasMatch(g, m2) {
      var j :| 0 <= j < |m2| && SameEndpoints(g, m2[j]);
      assert m2[j] in Elements(m2);
      var k := IndexOf(m1, m2[j]);
      assert SameEndpoints(g, m1[k]);
    }
  }

  /** The false-positive count depends on neither list's order: two
      duplicate-free model lists with the same triples, evaluated against two
      ground-truth lists with the same triples, give the same fp. Only which
      triples are listed as extra can differ. */
  lemma FalsePositivesIgnoreOrder(m1: seq<Triple>, m2: seq<Triple>, g1: seq<Triple>, g2: seq<Triple>)
    requires Distinct(m1) && Distinct(m2) && Elements(m1) == Elements(m2)
    requires Elements(g1) == Elements(g2)
    ensures EvalRelations(m1, g1).fp == EvalRelations(m2, g2).fp
  {
    UsedCount(m1, g1);
    UsedCount(m2, g2);
    MatchedPairsIgnoreOrder(m1, m2, g1, g2);
    DistinctCard(m1);
    DistinctCard(m2);
  }

  /** Every ratio lies in [0, 1] and is 0 when its denominator is 0. */
  lemma RelationMetricsBounded(model: seq<Triple>, gt: seq<Triple>)
    ensures var r := EvalRelations(model, gt);
      && 0.0 <= r.precision <= 1.0 && 0.0 <= r.recall <= 1.0 && 0.0 <= r.f1 <= 1.0
      && (r.tp + r.fp == 0 ==> r.precision == 0.0)
      && (r.tp + r.fn == 0 ==> r.recall == 0.0)
      && (r.precision + r.recall == 0.0 ==> r.f1 == 0.0)
  {
  }

  /** Nothing to compare: every count and every ratio is 0. */
  lemma EvalEmpty()
    ensures var r := EvalRelations([], []);
      && r.tp == 0 && r.fp == 0 && r.fn == 0
      && r.matched == [] && r.missing == [] && r.extra == []
      && r.precision == 0.0 && r.recall == 0.0 && r.f1 == 0.0
  {
  }

  /** Two ground-truth triples between the same endpoints both match the one
      model triple there: two true positives, although only one model triple
      is used. Swapping the roles of model and ground truth gives one true
      positive, so the true-positive count is not symmetric. */
  lemma SharedModelTriple()
    ensures var gt := [Triple("a", "r1", "b"), Triple("a", "r2", "b")];
      var model := [Triple("a", "x", "b")];
      var r := EvalRelations(model, gt);
      && r.tp == 2 && r.fn == 0 && r.fp == 0
      && |UsedModel(model, gt)| == 1
      && r.tp > |UsedModel(model, gt)|
      && EvalRelations(gt, model).tp == 1
  {
    var gt := [Triple("a", "r1", "b"), Triple("a", "r2", "b")];
    var model := [Triple("a", "x", "b")];
    assert FirstMatch(gt[0], model) == Some(0);
    assert FirstMatch(gt[1], model) == Some(0);
    assert UsedModel(model, gt) == {model[0]};
    assert FirstMatch(model[0], gt) == Some(0);
  }

  /** Two triple sequences that agree position by position on endpoints. */
  predicate SameShape(a: seq<Triple>, b: seq<Triple>) {
    |a| == |b| && forall i :: 0 <= i < |a| ==> SameEndpoints(a[i], b[i])
  }

  /** The scan for one ground-truth triple depends on endpoints only. */
  lemma {:induction false} FirstMatchIgnoresLabels(g1: Triple, g2: Triple, m1: seq<Triple>, m2: seq<Triple>)
    requires SameEndpoints(g1, g2) && SameShape(m1, m2)
    ensures FirstMatch(g1, m1) == FirstMatch(g2, m2)
  {
    if |m1| > 0 && !SameEndpoints(g1, m1[0]) {
      FirstMatchIgnoresLabels(g1, g2, m1[1..], m2[1..]);
    }
  }

  /** Relabelling triples without touching their endpoints does not change
      how many ground-truth triples have a match. */
  lemma {:induction false} MatchCountIgnoresLabels(g1: seq<Triple>, g2: seq<Triple>, m1: seq<Triple>, m2: seq<Triple>)
    requires SameShape(g1, g2) && SameShape(m1, m2)
    ensures MatchCount(g1, m1) == MatchCount(g2, m2)
  {
    if |g1| > 0 {
      var n := |g1| - 1;
      assert SameShape(g1[..n], g2[..n]);
      MatchCountIgnoresLabels(g1[..n], g2[..n], m1, m2);
      FirstMatchIgnoresLabels(g1[n], g2[n], m1, m2);
      assert HasMatch(g1[n], m1) == HasMatch(g2[n], m2);
    }
  }

  /** Labels are never compared: relabelling the ground truth and the model
      without touching endpoints leaves tp and fn, and so recall, unchanged. */
  lemma LabelsIgnored(g1: seq<Triple>, g2: seq<Triple>, m1: seq<Triple>, m2: seq<Triple>)
    requires SameShape(g1, g2) && SameShape(m1, m2)
    ensures EvalRelations(m1, g1).tp == EvalRelations(m2, g2).tp
    ensures EvalRelations(m1, g1).fn == EvalRelations(m2, g2).fn
    ensures EvalRelations(m1, g1).recall == EvalRelations(m2, g2).recall
  {
    MatchCountIgnoresLabels(g1, g2, m1, m2);
    SameCountsSameRecall(EvalRelations(m1, g1), EvalRelations(m2, g2));
  }

  /** Recall is a function of tp and fn alone. */
  lemma SameCountsSameRecall(r1: RelationReport, r2: RelationReport)
    requires RatiosOfCounts(r1) && RatiosOfCounts(r2)
    requires r1.tp == r2.tp && r1.fn == r2.fn
    ensures r1.recall == r2.recall
  {
  }
}

=== FILE: seqs.dfy ===
/** Duplicate-free sequences: the model of a Python `set` whose iteration
    order matters to the evaluator. */
module Seqs {

  predicate Distinct<T(==)>(s: seq<T>) {
    forall i, j :: 0 <= i < j < |s| ==> s[i] != s[j]
  }

  function Elements<T>(s: seq<T>): set<T> {
    set x | x in s
  }

  /** A duplicate-free sequence has as many elements as its set. */
  lemma {:induction false} DistinctCard<T>(s: seq<T>)
    requires Distinct(s)
    ensures |Elements(s)| == |s|
  {
    if |s| > 0 {
      var init := s[..|s| - 1];
      var last := s[|s| - 1];
      assert Distinct(init);
      DistinctCard(init);
      assert Elements(s) == Elements(init) + {last};
      assert last !in Elements(init);
    }
  }

  /** Appending an element not yet present keeps a sequence duplicate-free. */
  lemma DistinctAppend<T>(s: seq<T>, x: T)
    requires Distinct(s) && x !in s
    ensures Distinct(s + [x])
  {
    assert forall i :: 0 <= i < |s| ==> (s + [x])[i] == s[i];
  }

  /** A position where `x` occurs in `s`. */
  lemma IndexOf<T>(s: seq<T>, x: T) returns (i: nat)
    requires x in s
    ensures i < |s| && s[i] == x
  {
    i :| i < |s| && s[i] == x;
  }

  /** The elements of `s` that belong to `keep`, in their order in `s`: what
      a loop appending each such element builds. */
  function Restrict<T(!new)>(s: seq<T>, keep: set<T>): (r: seq<T>)
    ensures |r| <= |s|
    ensures forall x :: x in r <==> x in s && x in keep
  {
    if |s| == 0 then []
    else
      var init := s[..|s| - 1];
      var last := s[|s| - 1];
      assert forall x :: x in s <==> x in init || x == last;
      Restrict(init, keep) + (if last in keep then [last] else [])
  }

  /** The elements of `s` not in `seen`, each at its first occurrence, in
      order: the keys a run of dict assignments adds to a dict that already
      held `seen`. */
  function Fresh<T(!new)>(s: seq<T>, seen: set<T>): (r: seq<T>)
    ensures forall x :: x in r <==> x in s && x !in seen
  {
    if |s| == 0 then []
    else
      var init := s[..|s| - 1];
      var last := s[|s| - 1];
      assert forall x :: x in s <==> x in init || x == last;
      Fresh(init, seen) + (if last in seen || last in init then [] else [last])
  }

  /** Without repetitions in `s`, the first occurrences are all of `s` outside
      `seen`: Fresh is then Restrict to any set that holds exactly those. */
  lemma {:induction false} FreshDistinct<T(!new)>(s: seq<T>, seen: set<T>, keep: set<T>)
    requires Distinct(s)
    requires forall i :: 0 <= i < |s| ==> (s[i] in keep <==> s[i] !in seen)
    ensures Fresh(s, seen) == Restrict(s, keep)
  {
    if |s| > 0 {
      var n := |s| - 1;
      var init := s[..n];
      assert Distinct(init);
      assert forall i :: 0 <= i < n ==> init[i] == s[i];
      FreshDistinct(init, seen, keep);
      assert s[n] !in init;
    }
  }

  /** `set.add(x)`: nothing happens when `x` is already present, otherwise
      `x` joins after everything already there. */
  function Insert<T(==, !new)>(s: seq<T>, x: T): (r: seq<T>)
    requires Distinct(s)
    ensures Distinct(r)
    ensures s <= r
    ensures forall y :: y in r <==> y in s || y == x
  {
    if x in s then s else s + [x]
  }

  /** `set.update(xs)`, or a loop of `set.add`: the union of `s` and `xs`,
      with what `s` held keeping its place. */
  function InsertAll<T(==, !new)>(s: seq<T>, xs: seq<T>): (r: seq<T>)
    requires Distinct(s)
    ensures Distinct(r)
    ensures s <= r
    ensures forall y :: y in r <==> y in s || y in xs
  {
    if |xs| == 0 then s
    else
      var init := xs[..|xs| - 1];
      assert forall y :: y in xs <==> y in init || y == xs[|xs| - 1];
      Insert(InsertAll(s, init), xs[|xs| - 1])
  }
}

=== FILE: text.dfy ===
/** Text canonicalisation applied to every entity id, entity type, relation
    endpoint and relation label before any comparison (`normalize` in
    eval/eval_extraction.py): empty or absent text becomes "", anything else is
    trimmed of surrounding whitespace and lower-cased. */
module Text {
  import opened Wrappers

  /** The characters Python's `str.isspace` accepts; `str.strip()` with no
      argument removes exactly these from both ends. */
  predicate IsSpace(c: char) {
    || ('\t' <= c <= '\r')
    || ('\U{1C}' <= c <= '\U{1F}')
    || c == ' ' || c == '\U{85}' || c == '\U{A0}' || c == '\U{1680}'
    || ('\U{2000}' <= c <= '\U{200A}')
    || c == '\U{2028}' || c == '\U{2029}' || c == '\U{202F}' || c == '\U{205F}'
    || c == '\U{3000}'
  }

  predicate IsUpper(c: char) {
    'A' <= c <= 'Z'
  }

  predicate AllSpace(s: string) {
    forall i :: 0 <= i < |s| ==> IsSpace(s[i])
  }

  /** A string `normalize` leaves alone: no whitespace at either end and no
      upper-case letter anywhere. */
  predicate IsNormal(s: string) {
    && (|s| == 0 || (!IsSpace(s[0]) && !IsSpace(s[|s| - 1])))
    && forall i :: 0 <= i < |s| ==> !IsUpper(s[i])
  }

  function LowerChar(c: char): (d: char)
    ensures !IsUpper(d)
    ensures IsSpace(d) <==> IsSpace(c)
    ensures !IsUpper(c) ==> d == c
  {
    if IsUpper(c) then (c as int + 32) as char else c
  }

  /** `str.lower` on the ASCII letters. */
  function Lower(s: string): (r: string)
    ensures |r| == |s|
    ensures forall i :: 0 <= i < |s| ==> r[i] == LowerChar(s[i])
  {
    seq(|s|, i requires 0 <= i < |s| => LowerChar(s[i]))
  }

  /** Drops the leading whitespace: the result is a suffix of `s`, what was cut
      off is all whitespace, and the result does not start with whitespace. */
  function TrimLeft(s: string): (r: string)
    ensures |r| <= |s| && r == s[|s| - |r|..]
    ensures AllSpace(s[..|s| - |r|])
    ensures |r| > 0 ==> !IsSpace(r[0])
  {
    if |s| > 0 && IsSpace(s[0]) then TrimLeft(s[1..]) else s
  }

  /** Drops the trailing whitespace: the result is a prefix of `s`, what was cut
      off is all whitespace, and the result does not end with whitespace. */
  function TrimRight(s: string): (r: string)
    ensures |r| <= |s| && r == s[..|r|]
    ensures AllSpace(s[|r|..])
    ensures |r| > 0 ==> !IsSpace(r[|r| - 1])
  {
    if |s| > 0 && IsSpace(s[|s| - 1]) then TrimRight(s[..|s| - 1]) else s
  }

  /** `str.strip()`. */
  function Strip(s: string): (r: string)
    ensures |r| <= |s|
    ensures |r| == 0 || (!IsSpace(r[0]) && !IsSpace(r[|r| - 1]))
  {
    TrimRight(TrimLeft(s))
  }

  /** Lower-casing a string without edge whitespace gives a normal string. */
  lemma LowerStripped(s: string)
    requires |s| == 0 || (!IsSpace(s[0]) && !IsSpace(s[|s| - 1]))
    ensures IsNormal(Lower(s))
  {
    var r := Lower(s);
    if |s| > 0 {
      assert r[0] == LowerChar(s[0]);
      assert r[|r| - 1] == LowerChar(s[|s| - 1]);
    }
  }

  /** `normalize(text)` for a present string. */
  function Normalize(text: string): (r: string)
    ensures text == "" ==> r == ""
    ensures IsNormal(r)
    ensures |r| <= |text|
  {
    if |text| == 0 then ""
    else
      LowerStripped(Strip(text));
      Lower(Strip(text))
  }

  /** `normalize` applied to a value that may be absent (`None` in Python, or a
      missing dictionary key read with a default). */
  function NormalizeField(text: Option<string>): (r: string)
    ensures text.None? ==> r == ""
    ensures IsNormal(r)
  {
    match text
    case None => ""
    case Some(t) => Normalize(t)
  }

  /** A leading whitespace run followed by a non-space (or the end of the
      string) is exactly what TrimLeft removes. */
  lemma {:induction false} TrimLeftExact(s: string, i: nat)
    requires i <= |s| && AllSpace(s[..i])
    requires i < |s| ==> !IsSpace(s[i])
    ensures TrimLeft(s) == s[i..]
  {
    if i > 0 {
      var rest := s[1..];
      assert s[..i][0] == s[0];
      assert AllSpace(rest[..i - 1]) by {
        var x := rest[..i - 1];
        forall k | 0 <= k < |x|
          ensures IsSpace(x[k])
        {
          assert s[..i][k + 1] == x[k];
        }
      }
      TrimLeftExact(rest, i - 1);
      assert rest[i - 1..] == s[i..];
    }
  }

  /** A trailing whitespace run preceded by a non-space (or the start of the
      string) is exactly what TrimRight removes. */
  lemma {:induction false} TrimRightExact(s: string, j: nat)
    requires j <= |s| && AllSpace(s[j..])
    requires 0 < j ==> !IsSpace(s[j - 1])
    ensures TrimRight(s) == s[..j]
  {
    if j < |s| {
      var n := |s| - 1;
      var init := s[..n];
      assert s[j..][n - j] == s[n];
      assert AllSpace(init[j..]) by {
        var x := init[j..];
        forall k | 0 <= k < |x|
          ensures IsSpace(x[k])
        {
          assert s[j..][k] == x[k];
        }
      }
      TrimRightExact(init, j);
      assert init[..j] == s[..j];
    }
  }

  /** A string that is all whitespace strips to "". */
  lemma {:induction false} StripAllSpace(text: string, i: nat)
    requires i <= |text|
    requires AllSpace(text[..i]) && AllSpace(text[i..])
    ensures Strip(text) == []
  {
    assert AllSpace(text) by {
      forall k | 0 <= k < |text|
        ensures IsSpace(text[k])
      {
        if k < i {
          assert text[..i][k] == text[k];
        } else {
          assert text[i..][k - i] == text[k];
        }
      }
    }
    assert text[..|text|] == text;
    TrimLeftExact(text, |text|);
  }

  /** Once the leading run is gone, TrimRight removes exactly the trailing
      run. */
  lemma TrimRightOfCore(text: string, i: nat, j: nat)
    requires i < j <= |text|
    requires AllSpace(text[j..]) && !IsSpace(text[j - 1])
    ensures TrimRight(text[i..]) == text[i..j]
  {
    var t := text[i..];
    assert AllSpace(t[j - i..]) by {
      assert t[j - i..] == text[j..];
    }
    assert !IsSpace(t[j - i - 1]) by {
      assert t[j - i - 1] == text[j - 1];
    }
    TrimRightExact(t, j - i);
    assert t[..j - i] == text[i..j];
  }

  /** `str.strip()` removes exactly the leading and trailing whitespace runs. */
  lemma {:induction false} StripExact(text: string, i: nat, j: nat)
    requires i < j <= |text|
    requires AllSpace(text[..i]) && AllSpace(text[j..])
    requires !IsSpace(text[i]) && !IsSpace(text[j - 1])
    ensures Strip(text) == text[i..j]
  {
    TrimLeftExact(text, i);
    TrimRightOfCore(text, i, j);
  }

  /** Independent description of `normalize`: if `text[i..j]` is the part of
      `text` between its leading and trailing whitespace runs, the result is
      that part lower-cased. */
  lemma {:induction false} NormalizeIsLoweredCore(text: string, i: nat, j: nat)
    requires i <= j <= |text|
    requires AllSpace(text[..i]) && AllSpace(text[j..])
    requires i < j ==> !IsSpace(text[i]) && !IsSpace(text[j - 1])
    ensures Normalize(text) == Lower(text[i..j])
  {
    if |text| > 0 {
      if i == j {
        StripAllSpace(text, i);
      } else {
        StripExact(text, i, j);
      }
    }
  }

  /** The fixed points of `normalize` are exactly the normal strings, so every
      id, type and label produced by the adapters is a fixed point. */
  lemma {:induction false} NormalizeFixedPoints(s: string)
    ensures Normalize(s) == s <==> IsNormal(s)
  {
    if IsNormal(s) && |s| > 0 {
      NormalizeIsLoweredCore(s, 0, |s|);
      assert s[0..|s|] == s;
    }
  }

  /** `normalize(normalize(x)) == normalize(x)`. */
  lemma {:induction false} NormalizeIdempotent(text: string)
    ensures Normalize(Normalize(text)) == Normalize(text)
  {
    NormalizeFixedPoints(Normalize(text));
  }

  /** The leading and trailing whitespace runs of every string exist: this
      gives the bounds that NormalizeIsLoweredCore takes. */
  lemma {:induction false} CoreBounds(text: string) returns (i: nat, j: nat)
    ensures i <= j <= |text|
    ensures AllSpace(text[..i]) && AllSpace(text[j..])
    ensures i < j ==> !IsSpace(text[i]) && !IsSpace(text[j - 1])
  {
    var l := TrimLeft(text);
    var r := TrimRight(l);
    i := |text| - |l|;
    j := i + |r|;
    assert AllSpace(text[j..]) by {
      assert AllSpace(l[|r|..]);
      assert text[j..] == l[|r|..];
    }
    if i < j {
      assert text[i] == r[0] by {
        assert l[0] == text[i];
      }
      assert text[j - 1] == r[|r| - 1] by {
        assert l[|r| - 1] == text[j - 1];
      }
    }
  }

  /** Two strings of one length with whitespace at the same positions have
      the same whitespace runs. */
  lemma {:induction false} SameSpacing(a: string, b: string, i: nat, j: nat)
    requires |a| == |b| && i <= j <= |a|
    requires forall k :: 0 <= k < |a| ==> (IsSpace(a[k]) <==> IsSpace(b[k]))
    requires AllSpace(a[..i]) && AllSpace(a[j..])
    ensures AllSpace(b[..i]) && AllSpace(b[j..])
  {
    var bi := b[..i];
    forall k | 0 <= k < |bi|
      ensures IsSpace(bi[k])
    {
      assert a[..i][k] == a[k];
    }
    var bj := b[j..];
    forall k | 0 <= k < |bj|
      ensures IsSpace(bj[k])
    {
      assert a[j..][k] == a[j + k];
    }
  }

  /** Case does not matter: texts that agree after lower-casing normalise to
      the same string. */
  lemma {:induction false} NormalizeIgnoresCase(a: string, b: string)
    requires Lower(a) == Lower(b)
    ensures Normalize(a) == Normalize(b)
  {
    assert |a| == |b| by {
      assert |Lower(a)| == |Lower(b)|;
    }
    assert forall k :: 0 <= k < |a| ==> (IsSpace(a[k]) <==> IsSpace(b[k])) by {
      forall k | 0 <= k < |a|
        ensures IsSpace(a[k]) <==> IsSpace(b[k])
      {
        assert Lower(a)[k] == Lower(b)[k];
      }
    }
    var i, j := CoreBounds(a);
    SameSpacing(a, b, i, j);
    NormalizeIsLoweredCore(a, i, j);
    NormalizeIsLoweredCore(b, i, j);
    LowerSlice(a, b, i, j);
  }

  lemma {:induction false} LowerSlice(a: string, b: string, i: nat, j: nat)
    requires i <= j <= |a| == |b|
    requires Lower(a) == Lower(b)
    ensures Lower(a[i..j]) == Lower(b[i..j])
  {
    var x, y := Lower(a[i..j]), Lower(b[i..j]);
    forall k | 0 <= k < j - i
      ensures x[k] == y[k]
    {
      assert x[k] == LowerChar(a[i + k]) == Lower(a)[i + k];
      assert y[k] == LowerChar(b[i + k]) == Lower(b)[i + k];
    }
  }

  /** Surrounding whitespace does not matter. */
  lemma {:induction false} NormalizeIgnoresPadding(pre: string, s: string, post: string)
    requires AllSpace(pre) && AllSpace(post)
    ensures Normalize(pre + s + post) == Normalize(s)
  {
    var text := pre + s + post;
    var i, j := CoreBounds(s);
    var ti, tj := |pre| + i, |pre| + j;
    assert AllSpace(text[..ti]) by {
      var x := text[..ti];
      forall k | 0 <= k < |x|
        ensures IsSpace(x[k])
      {
        if k < |pre| {
          assert x[k] == pre[k];
        } else {
          assert x[k] == s[..i][k - |pre|];
        }
      }
    }
    assert AllSpace(text[tj..]) by {
      var x := text[tj..];
      forall k | 0 <= k < |x|
        ensures IsSpace(x[k])
      {
        if tj + k < |pre| + |s| {
          assert x[k] == s[j..][k];
        } else {
          assert x[k] == post[tj + k - |pre| - |s|];
        }
      }
    }
    assert text[ti..tj] == s[i..j];
    if i < j {
      assert text[ti] == s[i] && text[tj - 1] == s[j - 1];
    }
    NormalizeIsLoweredCore(text, ti, tj);
    NormalizeIsLoweredCore(s, i, j);
  }
}

=== FILE: wrappers.dfy ===
/** The optional-value datatype used where the evaluated code works with a value
    that may be absent (a missing dictionary entry, or no matching triple). */
module Wrappers {

  datatype Option<+T> = None | Some(value: T)
}
